=== FILE: README.md ===
# VirtualScrollView, modelled in Dafny

A model of the virtual scroll view of VScrollView24x, a Cocos Creator list
component that shows a very long list with only a small pool of item nodes.
The model covers:

- **Three modes.** The simple scroll mode, with no pool. The fixed-height
  grid of `columns` columns. The variable-height single column, backed by a
  prefix-sum table of item tops.
- **The slot pool ("ring buffer").**
  - The window starting at `_slotFirstIndex` binds slot `s` to index
    `first + s`, or hides the slot past the end of the list.
  - A small scroll rotates the pool and rebinds only the slots that enter
    the window. A forced update, or a jump of at least the pool size,
    relays out every slot.
  - Binding an index calls the render hook. It also calls the appear hook,
    once, when the index was added by `setTotalCount` and has not been
    shown since.
- **The touch handlers and the frame update.**
  - Drag, with a trailing window of velocity samples.
  - The release-velocity estimate.
  - The spring-damper and the inertia decay of `update`.
  - Pixel alignment.
- **The scroll API.** `scrollTo*`, `flashTo*`, `setTotalCount`,
  `refreshList` and `refreshIndex`.
- **The per-item tap detector.** It reports a click with the item's current
  data index when a touch starts on the item and ends within 10 units of
  where it started. A touch that moves more than 40 units first is
  cancelled.

## Modules

- `Numeric` holds the engine's and the language's numeric primitives:
  - `cc.misc.clampf`, which swaps its bounds when they are reversed;
  - `Math.round`;
  - ECMAScript `ToInt32`, the conversion behind `x | 0`.
- `Layout` holds the variable-height table of tops and its consumers:
  - `_buildPrefixSum`;
  - `_yToFirstIndex`, an upper-bound binary search;
  - `_calcVisibleRange`.
- `Grid` holds the grid's content height, first visible index, scroll
  target and pool size.
- `SlotRing` is the pool on values. Its parts are:
  - the window invariant;
  - `_layoutSingleSlot`, `_layoutSlots` and `_updateVisible`, which rotate
    and rebind;
  - the pending-appear set and the hook trace;
  - `refreshIndex`.
- `Sampler` holds the velocity samples, the stale-sample trimming and the
  release-velocity estimate.
- `Physics` holds one frame of `update`.
- `ItemTap` holds the tap detector, as a step function over events and as
  the `VScrollViewItem` class whose handlers update its fields in place.
- `ScrollView` holds the `VirtualScrollView` class.
  - Its fields are the component's state.
  - Each method is proved to do what the `SlotRing`, `Layout`, `Grid`,
    `Sampler` and `Physics` functions describe.
  - Each method keeps the component invariant `Valid()`, which says:
    - the pool has its fixed size;
    - the pool only ever holds the nodes it was built with (a multiset);
    - the window invariant holds;
    - the tops are sorted;
    - the scroll bounds start at 0;
    - every appear hook fired is paid for by one appended index.

Three kinds of input are parameters of the operations:
- the clock, as the `now` of `OnMove`;
- `Math.exp`, as the per-frame decay factors of `Update`;
- the touch delta, as `dy`.

Calls to injected callbacks are recorded as a trace of `Render` and
`Appear` hooks. An event marks the point where the list would call the
callback, whether or not one is installed:
- `Render(node, i)` is recorded each time a node is bound to index `i`, also
  when `renderItemFn` is null (VScrollView_new.ts:779 and :595 only call it
  when it is set);
- `Appear(node, i)` is recorded when `i` is pending, whether the installed
  `playItemAppearAnimationFn` or the default tween would play
  (VScrollView_new.ts:782-788).

Item nodes are identified by number.

## Model

| member | source | states |
|---|---|---|
| Numeric.ClampF | VScrollView_new.ts:473 | the result lies between the two bounds in either order; a value already between them is returned unchanged, one outside them gives the nearer bound |
| Numeric.ClampI | VScrollView_new.ts:462-466 | the same clamp on integer indices |
| Numeric.Round | VScrollView_new.ts:863 | `Math.round` yields an integer within half a unit of its argument (halves rounded up) |
| Numeric.RoundIdempotent | VScrollView_new.ts:616-617 | rounding an already rounded offset changes nothing, so the double rounding in `_onMove` and `_setContentY` equals a single one |
| Numeric.ToInt32 | VScrollView_new.ts:451 | `count \| 0` yields a 32-bit signed integer congruent to the count modulo 2^32 |
| Numeric.ToInt32Identity | VScrollView_new.ts:451 | a count that already fits in 32 bits passes through `\| 0` unchanged |
| Layout.ItemHeight | VScrollView_new.ts:309 | a node height of 0 is recorded as 100; any other height is kept; a non-negative height gives a positive one |
| Layout.ItemHeights | VScrollView_new.ts:303-311 | one recorded height per item, each `ItemHeight` of its node's height |
| Layout.PrefixSumInvariant | VScrollView_new.ts:336-342 | the first top is 0; consecutive tops differ by height plus spacing; the content height is the bottom of the last item, never negative |
| Layout.TopsSorted | VScrollView_new.ts:336-340 | with non-negative heights and spacing the tops never decrease; with positive heights they strictly increase |
| Layout.BuildPrefixSum | VScrollView_new.ts:333-347 | the loop fills the table with the tops, the content height is `max(0, acc - spacing)`, and the bounds are `[0, max(0, contentH - viewportH)]` |
| Layout.FirstIndexIsLargestTopAtOrAbove | VScrollView_new.ts:350-365 | on sorted tops, the first index for offset `y > 0` is the largest index whose top is at most `y` (0 when none), within `[0, max(0, n-1)]` |
| Layout.YToFirstIndex | VScrollView_new.ts:350-365 | the binary search returns a value in `[0, max(0, n-1)]`, returns 0 for `y <= 0`, and on sorted tops returns the index characterised above |
| Layout.CalcVisibleRange | VScrollView_new.ts:368-388 | `(0, 0)` for an empty table; otherwise `0 <= start <= end <= n`; on sorted tops it is the buffered visible range |
| Layout.VisibleEndSplitsAtBottom | VScrollView_new.ts:373-380 | every item in the unbuffered range starts above the viewport's bottom edge and every later item at or below it |
| Layout.RangeAtItemTopContainsItem | VScrollView_new.ts:517-528 | scrolling the top of item `i` to the viewport's top puts `i` inside the visible range |
| Layout.MinHeight | VScrollView_new.ts:317-319 | the smallest recorded height is at most every height and is one of them |
| Layout.TopsGap | VScrollView_new.ts:336-340 | tops `j - i` items apart differ by at least `j - i` times any lower bound on the heights |
| Layout.NextTopBelowOffset | VScrollView_new.ts:350-365 | the item after the first visible one starts below the offset |
| Layout.ItemInViewLiesInRange | VScrollView_new.ts:368-388 | an item whose top lies between the offset and the viewport's bottom edge is neither before the first visible index nor after the unbuffered end |
| Layout.TallFirstItemScenario | VScrollView_new.ts:333-388 | heights 16, 1, 1, 1, 1 without spacing give tops 0, 16, 17, 18, 19, height 20 and smallest height 1; offset 16 with a 4-high viewport shows items 1 to 4 |
| Layout.FiveItemScenario | VScrollView_new.ts:333-388 | heights 50, 80, 30, 120, 60 with spacing 10 give tops 0, 60, 150, 190, 320 and height 380; offset 100 with a 100-high viewport shows items 1 to 3 |
| Grid.GridContentHeightIsLastBottom | VScrollView_new.ts:851-853 | the grid's content height is the bottom of its last row, no item extends below it, and an empty grid has height 0 |
| Grid.GridFirstIndex | VScrollView_new.ts:683-686 | the first visible grid index lies in `[0, max(0, total-1)]` |
| Grid.GridFirstIndexStartsRowAtOffset | VScrollView_new.ts:683-686 | unclamped, that index starts a row whose band contains the offset |
| Grid.GridScrollRoundTrip | VScrollView_new.ts:524-526 | scrolling to an index's row and recomputing the window yields that row's first cell, so the index is among the first `columns` slots |
| Grid.Ceil | VScrollView_new.ts:278 | `Math.ceil`: the least integer at or above its argument |
| Grid.FixedSlotsCoverViewport | VScrollView_new.ts:277-279 | the grid pool of `max(1, (ceil(viewportH/stride) + buffer + 2) * columns)` slots reaches every item whose row starts above the viewport's bottom edge |
| Grid.RowBelowViewportEdge | VScrollView_new.ts:278 | a row starting above the viewport's bottom edge is at most `ceil(viewportH/stride)` rows below the row of the offset |
| Grid.SingleColumnScenario | VScrollView_new.ts:277-279 | a 400-high viewport over 108-unit rows uses 6 slots; offset 540 starts the window at item 5 |
| ScrollView.DragScenario | VScrollView_new.ts:699-723 | in that list, a drag from 0 to 540 moves the six-slot window by five items without a full relayout: the slot that showed item 5 becomes the first slot, and only items 6 to 10 leave the pending set and fire hooks |
| SlotRing.BindFiresAppearOnce | VScrollView_new.ts:742-790 | binding an index fires its appear hook exactly when it was pending, leaves it no longer pending, keeps every index's budget and only appends to the trace |
| SlotRing.PlaceRangeSlots | VScrollView_new.ts:826-835 | placing slots `lo..hi` binds each to `first + s` or hides it past the end, leaves every other slot alone and keeps every node in place |
| SlotRing.PlaceRangeBookkeeping | VScrollView_new.ts:782-789 | placing a range consumes exactly the pending indices it binds, keeps budgets, and only appends to the hook trace |
| SlotRing.PlaceKeepsBudget | VScrollView_new.ts:782-789 | placing one slot keeps every index's appear budget and only appends to the hook trace |
| SlotRing.PlaceRangePending | VScrollView_new.ts:782-789 | placing a range removes from the pending set exactly the existing indices it binds |
| SlotRing.PlaceRangeBudget | VScrollView_new.ts:782-789 | placing a range keeps the appear budget of every index and only appends to the hook trace |
| SlotRing.PlaceRangeStepBudget | VScrollView_new.ts:826-835 | placing the last slot of a range keeps each budget and extends the trace |
| SlotRing.PlaceRangeEffect | VScrollView_new.ts:823-836 | both halves of placing a range together |
| SlotRing.LayoutSlotsEstablishesWindow | VScrollView_new.ts:823-836 | a full relayout establishes the window invariant for its start whatever the slots held, keeps the nodes in place and keeps budgets |
| SlotRing.ShiftEstablishesWindow | VScrollView_new.ts:693-738 | every window update (forced, jump, rotation either way) leaves the window invariant holding for the new first index |
| SlotRing.ShiftLeftWindow | VScrollView_new.ts:709-723 | after a forward move by less than the pool size, the kept slots already show their new indices and the rotated tail is placed, so the window invariant holds for the new start |
| SlotRing.ShiftRightWindow | VScrollView_new.ts:724-737 | after a backward move by less than the pool size, the kept slots already show their new indices and the rotated head is placed, so the window invariant holds for the new start |
| SlotRing.RotatePermutesNodes | VScrollView_new.ts:710-711 | the splice and push rotation only permutes the pool's nodes |
| SlotRing.ShiftPermutesNodes | VScrollView_new.ts:699-738 | a window update never creates, loses or duplicates a node |
| SlotRing.ShiftConservesBudget | VScrollView_new.ts:699-738 | a window update never changes any index's appear budget |
| SlotRing.ShiftCases | VScrollView_new.ts:693-738 | no move and no force changes nothing; a forced update or a jump of at least the pool size relays out everything; a smaller move keeps the overlapping slots as they were, shifted, clears exactly the entering indices from the pending set, and only appends to the trace, at most two hooks per entering slot, each for an entering index |
| SlotRing.PlaceRangeTrace | VScrollView_new.ts:826-835 | placing a range only appends to the trace, at most two hooks per slot, and each appended hook is for an existing index of the range |
| SlotRing.WindowBindsExactlyItsIndices | VScrollView_new.ts:826-835 | under the window invariant the bound indices are exactly `[first, first + slots)` cut at the item count, each in one slot only |
| SlotRing.MarkAppended | VScrollView_new.ts:455-459 | an index is pending after the marking iff it was before or lies in `[oldCount, newCount)` |
| SlotRing.RefreshAsWrittenRendersMissingItem | VScrollView_new.ts:590-595 | as written, `refreshIndex` renders a hidden slot with an index past the end of the list |
| SlotRing.RefreshRendersBoundSlotOnly | VScrollView_new.ts:590-595 | the corrected refresh renders at most once, exactly when some shown slot is bound to the index, and then that slot's node with that index |
| Sampler.DropStale | VScrollView_new.ts:621-622 | trimming removes only a prefix, every removed sample is older than the cutoff, and the first kept one is not |
| Sampler.TrimStale | VScrollView_new.ts:622 | the trimming loop computes `DropStale` |
| Sampler.DropStaleKeepsNewest | VScrollView_new.ts:620-622 | with a non-negative window the sample just recorded is never dropped |
| Sampler.DropStaleKeepsWindow | VScrollView_new.ts:621-622 | with chronological samples exactly the samples inside the window remain |
| Sampler.GapsTelescope | VScrollView_new.ts:641-644 | the summed time gaps equal the time from the first counted sample to the last |
| Sampler.ReleaseVelocity | VScrollView_new.ts:634-667 | the release velocity always lies between `-maxVelocity` and `maxVelocity` |
| Sampler.ReleaseVelocityIsDisplacementOverTime | VScrollView_new.ts:638-658 | the averaged estimate is the summed deltas over the elapsed time of the last `min(n, 5)` samples, falling back to the last delta at 60 per second when that time is at most 1 ms |
| Sampler.ReleaseVelocityExample | VScrollView_new.ts:634-648 | deltas 12 and 11 over 40 ms give 575, clamped to 500 by a 500 limit |
| Sampler.EstimateReleaseVelocity | VScrollView_new.ts:634-667 | the loop of `_onUp` computes `ReleaseVelocity` |
| Physics.InertiaFactor | VScrollView_new.ts:402-413 | the decay factor is one of the three tiers, and always the middle one on the flat curve |
| Physics.InertiaNeverSpeedsUp | VScrollView_new.ts:401-419 | inside the bounds one frame never increases the speed and never reverses the direction |
| Physics.SnapStopsSlowMotion | VScrollView_new.ts:417-419 | inside the bounds a velocity already under the snap threshold becomes exactly 0 |
| Physics.RestingInBoundsStays | VScrollView_new.ts:417-428 | content at rest inside the bounds stays where it is |
| Physics.SpringPullsBack | VScrollView_new.ts:397-400 | past a bound, a velocity not already heading back is pushed towards the bounds |
| ItemTap.SquaredComparisonAgrees | assets/vscrollview/VScrollViewItem.ts:118-121 | comparing the squared distance with the squared thresholds decides as comparing `Math.sqrt` of it with the thresholds |
| ItemTap.Step | assets/vscrollview/VScrollViewItem.ts:96-154 | any one event reports at most one click |
| ItemTap.TouchStartArms | assets/vscrollview/VScrollViewItem.ts:100-105 | a touch start arms the detector at the touch point and keeps the data index |
| ItemTap.FarMoveCancels | assets/vscrollview/VScrollViewItem.ts:112-126 | a move beyond 40 units cancels the touch and forgets its start node; once cancelled, moves change nothing |
| ItemTap.TouchEndClicksIff | assets/vscrollview/VScrollViewItem.ts:128-149 | a touch end reports one click with the current index iff not cancelled, within 10 units, started on the item and a callback is installed; it always resets |
| ItemTap.EndAndCancelReset | assets/vscrollview/VScrollViewItem.ts:151-165 | after a touch end or cancel no touch is in progress and nothing is cancelled |
| ItemTap.NoClickWithoutTouchStart | assets/vscrollview/VScrollViewItem.ts:142-146 | with no touch in progress, no event sequence lacking a touch start clicks |
| ItemTap.SwipeNeverClicks | assets/vscrollview/VScrollViewItem.ts:121-125 | once a move cancels the touch, the rest of the gesture reports no click |
| ItemTap.TapReportsLatestIndex | assets/vscrollview/VScrollViewItem.ts:96-98 | a tap reports the data index set last, even when the item is rebound mid-touch |
| ItemTap.VScrollViewItem.constructor | assets/vscrollview/VScrollViewItem.ts:34-45 | a new item has data index -1, no touch in progress and nothing cancelled |
| ItemTap.VScrollViewItem.SetDataIndex | assets/vscrollview/VScrollViewItem.ts:96-98 | the handler updates the fields as `Step` does |
| ItemTap.VScrollViewItem.OnTouchStart | assets/vscrollview/VScrollViewItem.ts:100-110 | the handler updates the fields as `Step` does |
| ItemTap.VScrollViewItem.OnTouchMove | assets/vscrollview/VScrollViewItem.ts:112-126 | the handler updates the fields as `Step` does |
| ItemTap.VScrollViewItem.OnTouchEnd | assets/vscrollview/VScrollViewItem.ts:128-149 | the handler updates the fields and appends the click `Step` reports |
| ItemTap.VScrollViewItem.OnTouchCancel | assets/vscrollview/VScrollViewItem.ts:151-154 | the handler resets the detector as `Step` does |
| ItemTap.VScrollViewItem.Reset | assets/vscrollview/VScrollViewItem.ts:162-165 | no touch in progress and nothing cancelled; the data index and start point are kept |
| ScrollView.AveragePoolMissesItem | VScrollView_new.ts:317-319 | as written, heights 16, 1, 1, 1, 1 with a 4-high viewport get a 3-slot pool; the jump to item 4 is clamped to 16, where items 1 to 4 are visible but the window holds 1 to 3; the corrected pool has 5 slots |
| ScrollView.MinHeightSlotCount | VScrollView_new.ts:317-319 | the corrected pool never has more slots than items |
| ScrollView.SpanOfTops | VScrollView_new.ts:368-388 | the items strictly between the first visible one and the last top above the bottom edge number fewer than `ceil(viewportH / minH)` |
| ScrollView.VisibleSpan | VScrollView_new.ts:368-388 | with positive heights, the unbuffered visible range at any offset spans at most `ceil(viewportH / minH) + 1` items |
| ScrollView.MinHeightPoolCoversVisibleRange | VScrollView_new.ts:317-319 | the corrected pool `min(count, ceil(viewportH / minH) + 2 * buffer + 2)` holds the whole buffered visible range at any offset |
| ScrollView.ClampedTopInView | VScrollView_new.ts:517-528 | the jump to an item, clamped to the bounds, leaves its top between the offset and the viewport's bottom edge |
| ScrollView.DynamicJumpContainsIndex | VScrollView_new.ts:517-528 | in the variable-height list with the corrected pool, the window after a jump to an item contains it, whether or not the bounds clamp the jump |
| ScrollView.FixedSlotCountHoldsTwoRows | VScrollView_new.ts:279 | the grid pool always holds at least two full rows |
| ScrollView.GridWindowContainsScrolledIndex | VScrollView_new.ts:517-529 | in the grid, scrolling to an item's row puts it inside the window |
| ScrollView.GridClampedWindowContainsIndex | VScrollView_new.ts:277-279 | when an item's row top lies past the upper bound, the window at the upper bound still contains the item: the pool's `ceil(viewportH / stride) + buffer + 2` rows reach the last row |
| ScrollView.ClampedRows | VScrollView_new.ts:683-686 | at an offset no lower than the last row's bottom less the viewport height, a row starting below the offset lies between the offset's row and `ceil(viewportH / stride)` rows after it |
| ScrollView.GridJumpContainsIndex | VScrollView_new.ts:517-529 | in the grid, the window at the clamped top of an item's row contains the item, whether or not the clamp bites |
| ScrollView.RefreshKeepsAppearCount | VScrollView_new.ts:595 | a refresh only fires render hooks |
| ScrollView.InitialSlots | VScrollView_new.ts:281-287 | the freshly built pool has one slot per node |
| ScrollView.VirtualScrollView.constructor | VScrollView_new.ts:203-330 | start-up in each mode: the content height and bounds of the mode, the table of tops in the variable-height list, and the pool laid out from index 0, sized as start-up computes it (from the average height in the variable-height list) |
| ScrollView.InitialGeometry | VScrollView_new.ts:216-347 | simple mode keeps the content node's height; the grid gets its content height with the node at least viewport-high; the variable-height list gets the `height \|\| 100` heights, their sorted tops and the content height; in every mode the upper bound is `max(0, contentH - viewportH)` |
| ScrollView.VirtualScrollView.LayoutSingleSlot | VScrollView_new.ts:742-790 | the slot is bound as `Bind` describes |
| ScrollView.VirtualScrollView.PlaceSlots | VScrollView_new.ts:826-835 | the loop places the slots as `PlaceRange` describes |
| ScrollView.VirtualScrollView.LayoutSlots | VScrollView_new.ts:823-836 | the pool is laid out as `LayoutSlots` describes; nothing happens in simple mode |
| ScrollView.VirtualScrollView.ComputeWindowStart | VScrollView_new.ts:676-691 | the first index is the buffered range start or the clamped row start, 0 when the list is shorter than the pool |
| ScrollView.VirtualScrollView.MoveWindow | VScrollView_new.ts:693-738 | the pool moves as `Shift` describes |
| ScrollView.VirtualScrollView.RotateAndPlaceTail | VScrollView_new.ts:709-723 | the first `k` slots move to the back and those `k` slots are placed at their new indices |
| ScrollView.VirtualScrollView.RotateAndPlaceHead | VScrollView_new.ts:724-737 | the last `k` slots move to the front and those `k` slots are placed at their new indices |
| ScrollView.VirtualScrollView.UpdateVisible | VScrollView_new.ts:673-739 | the window moves to the first index for the current offset, and the component invariant is kept |
| ScrollView.VirtualScrollView.RecomputeContentHeight | VScrollView_new.ts:839-858 | the content height and bounds of each mode |
| ScrollView.VirtualScrollView.SetTotalCount | VScrollView_new.ts:445-469 | in the virtual list the count becomes `max(0, count \| 0)`, appended indices are marked for the appear hook, the grid's content height, node height and bounds follow the new count, the pool is laid out from the clamped first index and then from the offset's window start; the variable-height list keeps its heights and bounds; simple mode changes nothing |
| ScrollView.VirtualScrollView.ApplyCount | VScrollView_new.ts:451-461 | the count becomes `max(0, count \| 0)`, every appended index is pending and armed, the grid's content height, node height and bounds follow the new count, the variable-height list keeps its heights and bounds, and everything but the window invariant is kept |
| ScrollView.VirtualScrollView.RelayoutClamped | VScrollView_new.ts:462-467 | the first index is clamped to `[0, max(0, totalCount - 1)]`, the pool is laid out from it and the full invariant is restored |
| ScrollView.VirtualScrollView.RefreshList | VScrollView_new.ts:433-443 | in the virtual list, the new count, pool state, heights and bounds `SetTotalCount` gives; in simple mode nothing changes |
| ScrollView.VirtualScrollView.MarkAppendedIndices | VScrollView_new.ts:455-459 | the marking loop yields `MarkAppended` and keeps every appear hook paid for |
| ScrollView.VirtualScrollView.SetContentY | VScrollView_new.ts:860-866 | the offset becomes `y`, rounded when pixel alignment is on |
| ScrollView.VirtualScrollView.ScrollToPosition | VScrollView_new.ts:472-507 | motion stops, the samples are cleared, the offset is the clamped target (within half a unit of it when aligned) and the window is forced to it |
| ScrollView.VirtualScrollView.StopMotion | VScrollView_new.ts:480-482 | no velocity, no touch in progress and no velocity samples |
| ScrollView.VirtualScrollView.JumpTo | VScrollView_new.ts:484-486 | the offset becomes the target (rounded when aligned) and the window is forced to the offset, keeping the invariant |
| ScrollView.VirtualScrollView.ScrollToTop | VScrollView_new.ts:509-511 | motion stops and the offset jumps to the lower bound; the virtual list's pool is laid out afresh from the new window start, and simple mode's pool state is kept |
| ScrollView.VirtualScrollView.ScrollToBottom | VScrollView_new.ts:513-515 | motion stops and the offset jumps to the upper bound; the virtual list's pool is laid out afresh from the new window start, and simple mode's pool state is kept |
| ScrollView.VirtualScrollView.ScrollToIndex | VScrollView_new.ts:517-529 | motion stops, the offset is the clamped index's top clamped to the bounds, and the pool is laid out afresh from the new window start; without pixel alignment the window then contains the index, whether or not the bounds clamp the jump: always in the grid, and in the variable-height list whenever the pool holds at least `MinHeightSlotCount` slots |
| ScrollView.VirtualScrollView.FlashToIndex | VScrollView_new.ts:566-583 | in the virtual list, everything `ScrollToIndex` gives, including the index inside the window; in simple mode the offset, motion, samples and pool state are kept |
| ScrollView.VirtualScrollView.RefreshIndex | VScrollView_new.ts:585-596 | appends exactly the corrected `Refresh` to the hook trace and keeps the invariant |
| ScrollView.VirtualScrollView.OnDown | VScrollView_new.ts:599-608 | a drag starts with no velocity and no samples |
| ScrollView.VirtualScrollView.OnMove | VScrollView_new.ts:610-627 | the offset moves by the delta, the sample is recorded and stale ones dropped with the new one kept, and the pool moves to the new window start as an unforced `Shift` (rotating when the move is smaller than the pool); ignored with no drag |
| ScrollView.VirtualScrollView.DragContent | VScrollView_new.ts:614-617 | the offset moves by the delta, rounded when aligned |
| ScrollView.VirtualScrollView.RecordSample | VScrollView_new.ts:619-622 | the sample is appended and stale samples are dropped from the front; with a non-negative window the new sample is kept |
| ScrollView.VirtualScrollView.OnUp | VScrollView_new.ts:629-670 | the drag ends with the release velocity, bounded by `maxVelocity`, and no samples |
| ScrollView.VirtualScrollView.StepVelocity | VScrollView_new.ts:394-419 | the velocity becomes `Physics.NextVelocity` of the current offset |
| ScrollView.VirtualScrollView.Coast | VScrollView_new.ts:421-424 | the offset becomes `Physics.NextOffset` |
| ScrollView.VirtualScrollView.Update | VScrollView_new.ts:390-429 | nothing during a drag; otherwise one physics step, with the offset moving only at a non-zero velocity and the pool then following as an unforced `Shift` |

## Left out

- Node positions, widths and heights (`setPosition` and the grid's x
  coordinate) are not modelled. `_updateItemClickHandler` is not modelled
  either. The model keeps which node shows which index, and whether it is
  shown.
- The variable-height list's swap of a slot's node for the item's cached
  node (`_itemNodesCache`, VScrollView_new.ts:748-759) is not modelled.
  `SlotRing.ShiftPermutesNodes` therefore describes the pool's own nodes
  only.
- `Math.exp` is not computed. Each frame's three decay factors are a
  parameter. `performance.now()` is the `now` parameter.
- Animated scrolling is not modelled. The source's animated branch jumps
  immediately, exactly as the plain one does, and `_scrollTween` is never
  set. `_flashToPosition`, `flashToTop` and `flashToBottom` are
  `ScrollToPosition`, `ScrollToTop` and `ScrollToBottom`.
- The following are not modelled: the sort-layer toggles, the item's press
  scale effect, the default appear tween, touch binding and the component
  lifecycle.
- The start-up error path without a node provider is not modelled. The
  awaits of the start-up are not modelled either.
- Non-finite offsets, which `_setContentY` ignores, are not modelled.
  Fractional counts and indices before `| 0` are not modelled either; counts
  and indices are integers.
- The variable-height list requires a non-negative spacing and non-negative
  node heights. Without them the tops need not be sorted, and the binary
  search's characterisation does not hold.
- In the variable-height list, `setTotalCount` keeps the table of tops
  built at start-up, as the source does. No property relates a changed
  count to that table.
- `ScrollView.VirtualScrollView.RefreshIndex` models the corrected refresh
  (see Findings), not the code as written.
- `ScrollView.VirtualScrollView.ScrollToPosition`: with pixel alignment the
  rounded offset may lie up to half a unit outside the bounds. The contract
  states this instead of containment.
- `ScrollView.VirtualScrollView.ScrollToIndex`: the window-contains-index
  property is proved without pixel alignment only. With pixel alignment the
  rounded offset may fall just above the row's or item's top. In the
  variable-height list it is promised only when the pool has at least
  `MinHeightSlotCount` slots and the index has a top. The pool start-up
  computes from the average height can be smaller, and then the window can
  miss the index (see Findings). After `setTotalCount` grows the count past
  the table of tops, the source reads an undefined top and jumps to 0.
- `ScrollView.VirtualScrollView.FlashToIndex`: it carries the same
  window-contains-index clause as `ScrollToIndex`, under the same
  restrictions: no pixel alignment, and in the variable-height list a pool
  of at least `MinHeightSlotCount` slots and an index that has a top.
- `ScrollView.DynamicSlotCount` is the average-height pool as written,
  which the class keeps. The corrected `ScrollView.MinHeightSlotCount`
  appears only as the hypothesis of the variable-height containment
  clauses. The branch of `DynamicSlotCount` for content without height is
  never reached from the constructor: there, non-negative node heights
  become positive ones, so a non-empty list has a positive content height.
  The branch returns one slot per item. The source would divide by a zero
  average height instead. The source computes `0 / 0 = NaN` for an empty
  variable-height list, and its loop then builds no slots; the model gives
  0 slots.
- `ScrollView.ConfigOk` requires a positive grid stride, a non-negative
  buffer, a non-negative viewport height and a non-negative grid item
  height; the source checks none of these. With a stride of 0 (a
  zero-height prefab and spacing 0) and a positive viewport,
  `Math.ceil(viewportH / 0)` is `Infinity`. The pool loop at
  VScrollView_new.ts:277-281 then never ends. The model does not describe
  that configuration.
- `Grid.GridScrollRoundTrip`: offsets, heights and spacings are modelled as
  exact reals, not IEEE doubles. In doubles `floor(row * stride / stride)`
  can come out one row low when the stride has no exact binary form (item
  height 80.6 and spacing 10, row 838), and the window then starts one row
  early. The round trip is proved for exact arithmetic only.

## Findings

| source | as written | input that shows it | evidently intended | confidence | as-written member | corrected member |
|---|---|---|---|---|---|---|
| VScrollView_new.ts:317-319 | the variable-height pool is `min(totalCount, ceil(viewportH / (contentH / totalCount)) + 2 * buffer + 2)`, sized from the average height, so a viewport over short items can show more items than the pool holds | heights 16, 1, 1, 1, 1, spacing 0, viewport 4, buffer 0: 3 slots; `scrollToIndex(4)` is clamped to offset 16, where items 1 to 4 are visible but the window is items 1 to 3, so item 4 shows no node | size the pool from the smallest height, so it holds every item visible at once plus the buffer; the class keeps the pool as written, and its containment clauses hold for any pool at least this large | not executed | ScrollView.AveragePoolMissesItem | ScrollView.MinHeightPoolCoversVisibleRange |
| VScrollView_new.ts:590-595 | `refreshIndex` renders any index inside the window `[first, first + slots - 1]`, including indices at or past `totalCount` whose slot is hidden | a two-slot pool over one item, first index 0, `refreshIndex(1)` renders index 1 into the hidden slot | render only an index that exists and is bound | not executed | SlotRing.RefreshAsWrittenRendersMissingItem | SlotRing.RefreshRendersBoundSlotOnly |

=== FILE: grid.dfy ===
/**
 * Fixed-grid layout: every item has the same height, items fill rows of
 * `columns` cells in index order, and rows are `itemHeight + spacing` apart.
 */
module Grid {
  import opened Numeric

  lemma MulAtLeast(d: int, c: int)
    requires d >= 1 && c >= 0
    ensures d * c >= c
  {
    assert d * c == (d - 1) * c + c;
    assert (d - 1) * c >= 0;
  }

  lemma MulDiff(a: int, b: int, c: int)
    ensures a * c - b * c == (a - b) * c
  {
  }

  /** Euclidean division is determined by quotient and remainder. */
  lemma DivUnique(x: int, c: int, q: int, r: int)
    requires c >= 1 && x == q * c + r && 0 <= r < c
    ensures x / c == q && x % c == r
  {
    var q0, r0 := x / c, x % c;
    assert x == q0 * c + r0;
    MulDiff(q, q0, c);
    MulDiff(q0, q, c);
    if q0 < q {
      MulAtLeast(q - q0, c);
    } else if q0 > q {
      MulAtLeast(q0 - q, c);
    }
  }

  lemma DivMonotone(a: int, b: int, c: int)
    requires 0 <= a <= b && c >= 1
    ensures a / c <= b / c
  {
    var qa, qb := a / c, b / c;
    assert a == qa * c + a % c && b == qb * c + b % c;
    MulDiff(qa, qb, c);
    if qa > qb {
      MulAtLeast(qa - qb, c);
    }
  }

  lemma MulMonotone(a: real, b: real, c: real)
    requires a <= b && c >= 0.0
    ensures a * c <= b * c
  {
    assert b * c - a * c == (b - a) * c;
  }

  lemma MulStrict(a: real, b: real, c: real)
    requires a < b && c > 0.0
    ensures a * c < b * c
  {
    assert b * c - a * c == (b - a) * c;
  }

  /** `Math.ceil(total / columns)` for the non-negative counts the list holds, 0 otherwise. */
  function RowCount(total: int, columns: int): int
    requires columns >= 1
  {
    if total <= 0 then 0 else (total + columns - 1) / columns
  }

  /** Offset of the top of the row holding `index`. */
  function RowTop(index: int, columns: int, stride: real): real
    requires columns >= 1
  {
    (index / columns) as real * stride
  }

  /** Offset of the bottom edge of the item at `index`. */
  function ItemBottom(index: int, columns: int, itemHeight: real, spacing: real): real
    requires columns >= 1
  {
    RowTop(index, columns, itemHeight + spacing) + itemHeight
  }

  /** `_recomputeContentHeight` in grid mode: rows times stride less one spacing, or 0 with no rows. */
  function GridContentHeight(total: int, columns: int, itemHeight: real, spacing: real): real
    requires columns >= 1
  {
    var rows := RowCount(total, columns);
    if rows > 0 then rows as real * (itemHeight + spacing) - spacing else 0.0
  }

  /**
   * The grid's content height is exactly the bottom of the last row, and no
   * item extends below it; an empty grid has height 0.
   */
  lemma GridContentHeightIsLastBottom(total: int, columns: int, itemHeight: real, spacing: real)
    requires columns >= 1 && itemHeight + spacing >= 0.0
    ensures total <= 0 ==> GridContentHeight(total, columns, itemHeight, spacing) == 0.0
    ensures total >= 1 ==>
      GridContentHeight(total, columns, itemHeight, spacing)
        == RowTop(total - 1, columns, itemHeight + spacing) + itemHeight
    ensures forall i :: 0 <= i < total ==>
      ItemBottom(i, columns, itemHeight, spacing) <= GridContentHeight(total, columns, itemHeight, spacing)
  {
    var stride := itemHeight + spacing;
    if total >= 1 {
      var q := (total - 1) / columns;
      RowCountOfLast(total, columns);
      MulAddReal(q as real, 1.0, stride);
      assert GridContentHeight(total, columns, itemHeight, spacing) == q as real * stride + itemHeight;
      forall i | 0 <= i < total
        ensures ItemBottom(i, columns, itemHeight, spacing) <= GridContentHeight(total, columns, itemHeight, spacing)
      {
        DivMonotone(i, total - 1, columns);
        MulMonotone((i / columns) as real, q as real, stride);
      }
    }
  }

  /** A non-empty grid has one row more than the row index of its last item. */
  lemma RowCountOfLast(total: int, columns: int)
    requires total >= 1 && columns >= 1
    ensures RowCount(total, columns) == (total - 1) / columns + 1
  {
    var q := (total - 1) / columns;
    var r := (total - 1) % columns;
    assert total + columns - 1 == (q + 1) * columns + r;
    DivUnique(total + columns - 1, columns, q + 1, r);
  }

  /**
   * First visible index in grid mode: the first cell of the row at offset
   * `top`, clamped to `[0, max(0, total - 1)]`.
   */
  function GridFirstIndex(top: real, stride: real, columns: int, total: int): (r: int)
    requires stride > 0.0 && columns >= 1
    ensures 0 <= r <= MaxI(0, total - 1)
  {
    ClampI((top / stride).Floor * columns, 0, MaxI(0, total - 1))
  }

  /**
   * When the clamp does not bite, the first visible index starts a row, and
   * that row's band `[rowTop, rowTop + stride)` contains the offset `top`.
   */
  lemma GridFirstIndexStartsRowAtOffset(top: real, stride: real, columns: int, total: int)
    requires stride > 0.0 && columns >= 1 && top >= 0.0
    requires (top / stride).Floor * columns <= total - 1
    ensures var f := GridFirstIndex(top, stride, columns, total);
      f % columns == 0 &&
      RowTop(f, columns, stride) <= top < RowTop(f, columns, stride) + stride
  {
    var k := (top / stride).Floor;
    assert top / stride >= 0.0;
    assert k >= 0;
    assert k * columns >= 0;
    var f := GridFirstIndex(top, stride, columns, total);
    assert f == k * columns;
    DivUnique(f, columns, k, 0);
    assert f / columns == k;
    FloorBand(top, stride);
  }

  /** The row band of offset `x`: `x` lies in `[k * d, k * d + d)` for `k = floor(x / d)`. */
  lemma FloorBand(x: real, d: real)
    requires d > 0.0
    ensures (x / d).Floor as real * d <= x < (x / d).Floor as real * d + d
  {
    var q := x / d;
    var k := q.Floor as real;
    DivScale(x, d);
    MulMonotone(k, q, d);
    MulStrict(q, k + 1.0, d);
    MulAddReal(k, 1.0, d);
    assert 1.0 * d == d;
    assert q * d == x;
    assert k * d <= q * d < (k + 1.0) * d;
  }

  /** `scrollToIndex` in grid mode: the top of the index's row. */
  function GridScrollTarget(index: int, columns: int, stride: real): real
    requires columns >= 1
  {
    RowTop(index, columns, stride)
  }

  /**
   * Scrolling to an index and recomputing the window yields the first cell
   * of that index's row, so the index lies within the first `columns` slots.
   */
  lemma GridScrollRoundTrip(index: int, columns: int, stride: real, total: int)
    requires stride > 0.0 && columns >= 1 && 0 <= index < total
    ensures var f := GridFirstIndex(GridScrollTarget(index, columns, stride), stride, columns, total);
      f == (index / columns) * columns && f <= index < f + columns
  {
    var row := index / columns;
    var t := GridScrollTarget(index, columns, stride);
    assert t / stride == row as real;
    assert (t / stride).Floor == row;
    assert index == row * columns + index % columns;
  }

  /** `Math.ceil` on reals. */
  function Ceil(x: real): (c: int)
    ensures x <= c as real < x + 1.0
  {
    -((-x).Floor)
  }

  /** Pool size in grid mode: `max(1, (ceil(viewportH / stride) + buffer + 2) * columns)`. */
  function FixedSlotCount(viewportH: real, stride: real, buffer: int, columns: int): int
    requires stride > 0.0
  {
    MaxI(1, (Ceil(viewportH / stride) + buffer + 2) * columns)
  }

  /**
   * The grid pool is large enough: when the window starts at the row of
   * offset `top` (no clamping), every item whose row starts above the
   * viewport's bottom edge and not before the window start is inside
   * `[first, first + slots)`.
   */
  lemma FixedSlotsCoverViewport(top: real, viewportH: real, stride: real, buffer: int, columns: int, i: int)
    requires stride > 0.0 && columns >= 1 && buffer >= 0 && viewportH >= 0.0 && top >= 0.0
    requires (top / stride).Floor * columns <= i
    requires RowTop(i, columns, stride) < top + viewportH
    ensures i < (top / stride).Floor * columns + FixedSlotCount(viewportH, stride, buffer, columns)
  {
    var k := (top / stride).Floor;
    var c := Ceil(viewportH / stride);
    var row := i / columns;
    RowBelowViewportEdge(top, viewportH, stride, row);
    assert i == row * columns + i % columns;
    MulDiff(row + 1, row, columns);
    assert i < (row + 1) * columns;
    MulMonotoneInt(row + 1, k + 1 + c, columns);
    MulMonotoneInt(k + 1 + c, k + c + buffer + 2, columns);
    MulDiff(k + c + buffer + 2, k, columns);
    assert (k + c + buffer + 2) * columns == k * columns + (c + buffer + 2) * columns;
  }

  lemma MulMonotoneInt(a: int, b: int, c: int)
    requires a <= b && c >= 0
    ensures a * c <= b * c
  {
    MulDiff(b, a, c);
    if a < b {
      MulAtLeast(b - a, c);
    }
  }

  /** A row whose top lies above `top + viewportH` is at most `ceil(viewportH / stride)` rows below the row of `top`. */
  lemma RowBelowViewportEdge(top: real, viewportH: real, stride: real, row: int)
    requires stride > 0.0 && viewportH >= 0.0 && top >= 0.0
    requires row as real * stride < top + viewportH
    ensures row < (top / stride).Floor + 1 + Ceil(viewportH / stride)
  {
    var tq := top / stride;
    var vq := viewportH / stride;
    var bound := (tq.Floor + 1 + Ceil(vq)) as real;
    assert tq + vq <= bound;
    DivScale(top, stride);
    DivScale(viewportH, stride);
    MulMonotone(tq + vq, bound, stride);
    MulAddReal(tq, vq, stride);
    if row as real >= bound {
      MulMonotone(bound, row as real, stride);
      assert false;
    }
  }

  lemma DivScale(x: real, d: real)
    requires d > 0.0
    ensures (x / d) * d == x
  {
  }

  lemma MulAddReal(a: real, b: real, c: real)
    ensures (a + b) * c == a * c + b * c
  {
  }

  /**
   * A 400-high viewport over 100-high rows with spacing 8 and no buffer uses
   * six slots, and scrolled to 540 its first visible item is item 5.
   */
  lemma SingleColumnScenario()
    ensures FixedSlotCount(400.0, 108.0, 0, 1) == 6
    ensures GridFirstIndex(540.0, 108.0, 1, 50) == 5
  {
    assert 3.0 < 400.0 / 108.0 < 4.0;
    assert Ceil(400.0 / 108.0) == 4;
    assert 540.0 / 108.0 == 5.0;
  }
}

=== FILE: item.dfy ===
/**
 * The tap detector each list item carries: a touch that starts on the item
 * and ends close to where it started reports one click with the item's
 * current data index; a touch that strays too far first is cancelled.
 */
module ItemTap {

  /** Beyond this distance from the start point a touch becomes a swipe. */
  const MoveThreshold: real := 40.0
  /** A touch ending closer than this to its start point is a click. */
  const ClickThreshold: real := 10.0

  /** Squared distance from the start point; thresholds are compared squared. */
  function SquaredDistance(x: real, y: real, sx: real, sy: real): (d2: real)
    ensures d2 >= 0.0
  {
    (x - sx) * (x - sx) + (y - sy) * (y - sy)
  }

  lemma SquareMonotone(a: real, b: real)
    requires 0.0 <= a < b
    ensures a * a < b * b
  {
    assert a * b - a * a == a * (b - a);
    assert b * b - a * b == b * (b - a);
    assert a * (b - a) >= 0.0;
    assert b * (b - a) > 0.0;
  }

  /**
   * Comparing squared distances decides the same as comparing the distance
   * `d = sqrt(d2)` with the thresholds.
   */
  lemma SquaredComparisonAgrees(d: real, d2: real)
    requires d >= 0.0 && d * d == d2
    ensures d > MoveThreshold <==> d2 > MoveThreshold * MoveThreshold
    ensures d < ClickThreshold <==> d2 < ClickThreshold * ClickThreshold
  {
    if d > MoveThreshold {
      SquareMonotone(MoveThreshold, d);
    } else if d < MoveThreshold {
      SquareMonotone(d, MoveThreshold);
    }
    if d < ClickThreshold {
      SquareMonotone(d, ClickThreshold);
    } else if d > ClickThreshold {
      SquareMonotone(ClickThreshold, d);
    }
  }

  /**
   * The detector's fields: the data index, whether the current touch started
   * on this item (`_touchStartNode === this.node`), whether it was cancelled,
   * and the start point.
   */
  datatype TapState = TapState(dataIndex: int, startedHere: bool, canceled: bool, startX: real, startY: real)

  /** The detector's state when the item is created. */
  const Initial: TapState := TapState(-1, false, false, 0.0, 0.0)

  datatype TouchEvent =
    | TouchStart(x: real, y: real)
    | TouchMove(x: real, y: real)
    | TouchEnd(x: real, y: real)
    | TouchCancel
    | SetDataIndex(index: int)

  /** Outcome of one event: the new state and the indices reported to the click callback. */
  datatype Outcome = Outcome(state: TapState, clicks: seq<int>)

  /** `_reset`: no touch in progress and not cancelled. */
  function ResetState(s: TapState): TapState
  {
    s.(startedHere := false, canceled := false)
  }

  /** One event handler; `hasCallback` says whether a click callback is installed. */
  function Step(s: TapState, e: TouchEvent, hasCallback: bool): (o: Outcome)
    ensures |o.clicks| <= 1
  {
    match e
    case SetDataIndex(i) => Outcome(s.(dataIndex := i), [])
    case TouchStart(x, y) => Outcome(s.(startedHere := true, canceled := false, startX := x, startY := y), [])
    case TouchMove(x, y) =>
      if s.canceled then Outcome(s, [])
      else if SquaredDistance(x, y, s.startX, s.startY) > MoveThreshold * MoveThreshold
      then Outcome(s.(canceled := true, startedHere := false), [])
      else Outcome(s, [])
    case TouchEnd(x, y) =>
      if s.canceled then Outcome(ResetState(s), [])
      else if SquaredDistance(x, y, s.startX, s.startY) < ClickThreshold * ClickThreshold && s.startedHere && hasCallback
      then Outcome(ResetState(s), [s.dataIndex])
      else Outcome(ResetState(s), [])
    case TouchCancel => Outcome(ResetState(s), [])
  }

  /** A sequence of events applied in order, with the clicks they report in order. */
  function Run(s: TapState, es: seq<TouchEvent>, hasCallback: bool): Outcome
    decreases |es|
  {
    if es == [] then Outcome(s, [])
    else
      var o := Step(s, es[0], hasCallback);
      var rest := Run(o.state, es[1..], hasCallback);
      Outcome(rest.state, o.clicks + rest.clicks)
  }

  /** A touch start always arms the detector at the touch point and keeps the data index. */
  lemma TouchStartArms(s: TapState, x: real, y: real, hasCallback: bool)
    ensures var o := Step(s, TouchStart(x, y), hasCallback);
      o.state == TapState(s.dataIndex, true, false, x, y) && o.clicks == []
  {
  }

  /**
   * A move beyond the move threshold cancels the touch and forgets where it
   * started; once cancelled, moves change nothing.
   */
  lemma FarMoveCancels(s: TapState, x: real, y: real, hasCallback: bool)
    ensures var o := Step(s, TouchMove(x, y), hasCallback);
      o.clicks == [] &&
      (s.canceled ==> o.state == s) &&
      (!s.canceled && SquaredDistance(x, y, s.startX, s.startY) > MoveThreshold * MoveThreshold ==>
        o.state.canceled && !o.state.startedHere) &&
      (!s.canceled && SquaredDistance(x, y, s.startX, s.startY) <= MoveThreshold * MoveThreshold ==>
        o.state == s)
  {
  }

  /**
   * A touch end reports exactly one click, with the current data index, iff
   * the touch was not cancelled, ended within the click threshold, started on
   * this item, and a callback is installed; otherwise it reports nothing.
   * Either way it leaves the detector reset.
   */
  lemma TouchEndClicksIff(s: TapState, x: real, y: real, hasCallback: bool)
    ensures var o := Step(s, TouchEnd(x, y), hasCallback);
      (o.clicks == [s.dataIndex] <==>
        !s.canceled && SquaredDistance(x, y, s.startX, s.startY) < ClickThreshold * ClickThreshold &&
        s.startedHere && hasCallback) &&
      (o.clicks == [] <==>
        !(!s.canceled && SquaredDistance(x, y, s.startX, s.startY) < ClickThreshold * ClickThreshold &&
          s.startedHere && hasCallback)) &&
      o.state == ResetState(s)
  {
  }

  /** After any touch end or touch cancel no touch is in progress and the detector is not cancelled. */
  lemma EndAndCancelReset(s: TapState, e: TouchEvent, hasCallback: bool)
    requires e.TouchEnd? || e.TouchCancel?
    ensures var o := Step(s, e, hasCallback);
      !o.state.startedHere && !o.state.canceled && o.state.dataIndex == s.dataIndex
  {
  }

  /**
   * Without a touch start on this item nothing clicks: from a state with no
   * touch in progress (for example after a cancelling move), no sequence of
   * events lacking a touch start reports a click.
   */
  lemma {:induction false} NoClickWithoutTouchStart(s: TapState, es: seq<TouchEvent>, hasCallback: bool)
    requires !s.startedHere
    requires forall k :: 0 <= k < |es| ==> !es[k].TouchStart?
    ensures Run(s, es, hasCallback).clicks == []
    ensures !Run(s, es, hasCallback).state.startedHere
    decreases |es|
  {
    if es != [] {
      var o := Step(s, es[0], hasCallback);
      assert !o.state.startedHere && o.clicks == [];
      NoClickWithoutTouchStart(o.state, es[1..], hasCallback);
    }
  }

  /** A swipe never clicks: once a move cancels the touch, the rest of the gesture reports nothing. */
  lemma SwipeNeverClicks(s: TapState, x: real, y: real, es: seq<TouchEvent>, hasCallback: bool)
    requires !s.canceled && SquaredDistance(x, y, s.startX, s.startY) > MoveThreshold * MoveThreshold
    requires forall k :: 0 <= k < |es| ==> !es[k].TouchStart?
    ensures Run(s, [TouchMove(x, y)] + es, hasCallback).clicks == []
  {
    var o := Step(s, TouchMove(x, y), hasCallback);
    assert ([TouchMove(x, y)] + es)[1..] == es;
    NoClickWithoutTouchStart(o.state, es, hasCallback);
  }

  /**
   * A tap reports the index most recently set on the item, even when the
   * list rebinds the item between touch start and touch end.
   */
  lemma TapReportsLatestIndex(s: TapState, x: real, y: real, i: int)
    ensures Run(s, [TouchStart(x, y), SetDataIndex(i), TouchEnd(x, y)], true).clicks == [i]
  {
    var es := [TouchStart(x, y), SetDataIndex(i), TouchEnd(x, y)];
    var s1 := Step(s, es[0], true).state;
    var s2 := Step(s1, es[1], true).state;
    assert s2.startX == x && s2.startY == y && !s2.canceled && s2.startedHere && s2.dataIndex == i;
    assert x - x == 0.0 && y - y == 0.0;
    assert SquaredDistance(x, y, x, y) == 0.0;
    assert Step(s2, es[2], true).clicks == [i];
    assert es[1..][1..] == [es[2]] && es[1..][1..][1..] == [];
    assert Run(s2, es[1..][1..], true).clicks == [i];
    assert Run(s1, es[1..], true).clicks == [i];
  }

  /**
   * `VScrollViewItem`: the detector as an object whose handlers update its
   * fields in place; `clicks` records the indices passed to the click
   * callback.
   */
  class VScrollViewItem {
    var dataIndex: int
    var startedHere: bool
    var canceled: bool
    var startX: real
    var startY: real
    var hasCallback: bool
    var clicks: seq<int>

    function State(): TapState
      reads this
    {
      TapState(dataIndex, startedHere, canceled, startX, startY)
    }

    constructor(hasCallback: bool)
      ensures State() == Initial && this.hasCallback == hasCallback && clicks == []
    {
      dataIndex := -1;
      startedHere := false;
      canceled := false;
      startX := 0.0;
      startY := 0.0;
      this.hasCallback := hasCallback;
      clicks := [];
    }

    method SetDataIndex(index: int)
      modifies this
      ensures State() == Step(old(State()), TouchEvent.SetDataIndex(index), hasCallback).state
      ensures clicks == old(clicks) && hasCallback == old(hasCallback)
    {
      dataIndex := index;
    }

    method OnTouchStart(x: real, y: real)
      modifies this
      ensures State() == Step(old(State()), TouchStart(x, y), hasCallback).state
      ensures clicks == old(clicks) && hasCallback == old(hasCallback)
    {
      startedHere := true;
      canceled := false;
      startX, startY := x, y;
    }

    method OnTouchMove(x: real, y: real)
      modifies this
      ensures State() == Step(old(State()), TouchMove(x, y), hasCallback).state
      ensures clicks == old(clicks) && hasCallback == old(hasCallback)
    {
      if canceled {
        return;
      }
      if SquaredDistance(x, y, startX, startY) > MoveThreshold * MoveThreshold {
        canceled := true;
        startedHere := false;
      }
    }

    method OnTouchEnd(x: real, y: real)
      modifies this
      ensures var o := Step(old(State()), TouchEnd(x, y), hasCallback);
        State() == o.state && clicks == old(clicks) + o.clicks
      ensures hasCallback == old(hasCallback)
    {
      if canceled {
        Reset();
        return;
      }
      if SquaredDistance(x, y, startX, startY) < ClickThreshold * ClickThreshold && startedHere {
        if hasCallback {
          clicks := clicks + [dataIndex];
        }
      }
      Reset();
    }

    method OnTouchCancel()
      modifies this
      ensures State() == Step(old(State()), TouchCancel, hasCallback).state
      ensures clicks == old(clicks) && hasCallback == old(hasCallback)
    {
      Reset();
    }

    method Reset()
      modifies this
      ensures State() == ResetState(old(State()))
      ensures clicks == old(clicks) && hasCallback == old(hasCallback)
    {
      startedHere := false;
      canceled := false;
    }
  }
}

=== FILE: layout.dfy ===
/**
 * Variable-height single-column layout: the prefix-sum table of item tops,
 * the content height and scroll bounds derived from it, the upper-bound
 * binary search from a scroll offset to the first visible item, and the
 * visible range widened by the buffer margin.
 */
module Layout {
  import opened Numeric

  /** Height recorded for an item: a node reporting height 0 counts as 100. */
  function ItemHeight(nodeHeight: real): (h: real)
    ensures nodeHeight != 0.0 ==> h == nodeHeight
    ensures nodeHeight == 0.0 ==> h == 100.0
    ensures nodeHeight >= 0.0 ==> h > 0.0
  {
    if nodeHeight == 0.0 then 100.0 else nodeHeight
  }

  /** Heights of all items, as the variable-height initialisation records them. */
  function ItemHeights(nodeHeights: seq<real>): (hs: seq<real>)
    ensures |hs| == |nodeHeights|
    ensures forall i :: 0 <= i < |hs| ==> hs[i] == ItemHeight(nodeHeights[i])
  {
    seq(|nodeHeights|, i requires 0 <= i < |nodeHeights| => ItemHeight(nodeHeights[i]))
  }

  /** Sum of `height + spacing` over all of `hs`: the running accumulator. */
  function Extent(hs: seq<real>, spacing: real): real
  {
    if hs == [] then 0.0 else Extent(hs[..|hs| - 1], spacing) + hs[|hs| - 1] + spacing
  }

  /** The table of item tops: item `i` starts at the extent of the items before it. */
  function Tops(hs: seq<real>, spacing: real): (p: seq<real>)
    ensures |p| == |hs|
  {
    if hs == [] then [] else Tops(hs[..|hs| - 1], spacing) + [Extent(hs[..|hs| - 1], spacing)]
  }

  /** Content height: the accumulator minus the trailing spacing, never negative. */
  function ContentHeight(hs: seq<real>, spacing: real): real
  {
    MaxR(0.0, Extent(hs, spacing) - spacing)
  }

  predicate Sorted(p: seq<real>)
  {
    forall i, j :: 0 <= i <= j < |p| ==> p[i] <= p[j]
  }

  predicate StrictlySorted(p: seq<real>)
  {
    forall i, j :: 0 <= i < j < |p| ==> p[i] < p[j]
  }

  predicate NonNegative(hs: seq<real>)
  {
    forall i :: 0 <= i < |hs| ==> hs[i] >= 0.0
  }

  predicate Positive(hs: seq<real>)
  {
    forall i :: 0 <= i < |hs| ==> hs[i] > 0.0
  }

  lemma {:induction false} TopsAt(hs: seq<real>, spacing: real, i: int)
    requires 0 <= i < |hs|
    ensures Tops(hs, spacing)[i] == Extent(hs[..i], spacing)
  {
    var n := |hs|;
    if i < n - 1 {
      TopsAt(hs[..n - 1], spacing, i);
      assert hs[..n - 1][..i] == hs[..i];
    } else {
      assert hs[..n - 1] == hs[..i];
    }
  }

  lemma ExtentStep(hs: seq<real>, spacing: real, i: int)
    requires 0 <= i < |hs|
    ensures Extent(hs[..i + 1], spacing) == Extent(hs[..i], spacing) + hs[i] + spacing
  {
    assert hs[..i + 1][..i] == hs[..i];
  }

  /**
   * The prefix-sum invariant: the first top is 0, consecutive tops differ by
   * `height + spacing`, and the content height is the bottom of the last item
   * (0 for an empty list when spacing is not negative).
   */
  lemma PrefixSumInvariant(hs: seq<real>, spacing: real)
    ensures |hs| > 0 ==> Tops(hs, spacing)[0] == 0.0
    ensures forall i :: 0 <= i < |hs| - 1 ==>
      Tops(hs, spacing)[i + 1] - Tops(hs, spacing)[i] == hs[i] + spacing
    ensures |hs| > 0 ==>
      ContentHeight(hs, spacing) == MaxR(0.0, Tops(hs, spacing)[|hs| - 1] + hs[|hs| - 1])
    ensures |hs| == 0 && spacing >= 0.0 ==> ContentHeight(hs, spacing) == 0.0
  {
    var p := Tops(hs, spacing);
    if |hs| > 0 {
      TopsAt(hs, spacing, 0);
      assert hs[..0] == [];
      var n := |hs|;
      TopsAt(hs, spacing, n - 1);
      ExtentStep(hs, spacing, n - 1);
      assert hs[..n] == hs;
    }
    forall i | 0 <= i < |hs| - 1
      ensures p[i + 1] - p[i] == hs[i] + spacing
    {
      TopsAt(hs, spacing, i);
      TopsAt(hs, spacing, i + 1);
      ExtentStep(hs, spacing, i);
    }
  }

  lemma {:induction false} ExtentMonotone(hs: seq<real>, spacing: real, i: int, j: int)
    requires NonNegative(hs) && spacing >= 0.0
    requires 0 <= i <= j <= |hs|
    ensures Extent(hs[..i], spacing) <= Extent(hs[..j], spacing)
    ensures i < j && Positive(hs) ==> Extent(hs[..i], spacing) < Extent(hs[..j], spacing)
  {
    if i < j {
      ExtentMonotone(hs, spacing, i, j - 1);
      ExtentStep(hs, spacing, j - 1);
    }
  }

  /** The smallest height of a non-empty list: at most every height, and one of them. */
  function MinHeight(hs: seq<real>): (m: real)
    requires |hs| > 0
    ensures forall i :: 0 <= i < |hs| ==> m <= hs[i]
    ensures exists i :: 0 <= i < |hs| && m == hs[i]
  {
    if |hs| == 1 then hs[0]
    else
      var m' := MinHeight(hs[..|hs| - 1]);
      assert forall i :: 0 <= i < |hs| - 1 ==> hs[..|hs| - 1][i] == hs[i];
      MinR(m', hs[|hs| - 1])
  }

  /** Tops `j - i` items apart differ by at least `j - i` times a lower bound `m` on the heights. */
  lemma {:induction false} TopsGap(hs: seq<real>, spacing: real, m: real, i: int, j: int)
    requires spacing >= 0.0 && 0 <= i <= j < |hs|
    requires forall k :: 0 <= k < |hs| ==> hs[k] >= m
    ensures Tops(hs, spacing)[j] - Tops(hs, spacing)[i] >= (j - i) as real * m
  {
    if i < j {
      TopsGap(hs, spacing, m, i, j - 1);
      PrefixSumInvariant(hs, spacing);
      assert (j - i) as real * m == (j - 1 - i) as real * m + m;
    }
  }

  /** With non-negative heights and spacing the tops are sorted; with positive heights, strictly. */
  lemma TopsSorted(hs: seq<real>, spacing: real)
    requires NonNegative(hs) && spacing >= 0.0
    ensures Sorted(Tops(hs, spacing))
    ensures Positive(hs) ==> StrictlySorted(Tops(hs, spacing))
  {
    var p := Tops(hs, spacing);
    forall i, j | 0 <= i <= j < |p|
      ensures p[i] <= p[j]
      ensures i < j && Positive(hs) ==> p[i] < p[j]
    {
      TopsAt(hs, spacing, i);
      TopsAt(hs, spacing, j);
      ExtentMonotone(hs, spacing, i, j);
    }
  }

  /**
   * `_buildPrefixSum`: fills the table of tops with a running accumulator and
   * derives the content height and the scroll bounds `[0, max(0, contentH - viewportH)]`.
   */
  method BuildPrefixSum(heights: seq<real>, spacing: real, viewportH: real)
    returns (prefixY: seq<real>, contentH: real, boundsMin: real, boundsMax: real)
    ensures prefixY == Tops(heights, spacing)
    ensures contentH == ContentHeight(heights, spacing) && contentH >= 0.0
    ensures boundsMin == 0.0 && boundsMax == MaxR(0.0, contentH - viewportH)
  {
    var n := |heights|;
    prefixY := [];
    var acc := 0.0;
    for i := 0 to n
      invariant prefixY == Tops(heights[..i], spacing)
      invariant acc == Extent(heights[..i], spacing)
    {
      assert heights[..i + 1][..i] == heights[..i];
      prefixY := prefixY + [acc];
      acc := acc + heights[i] + spacing;
    }
    assert heights[..n] == heights;
    contentH := acc - spacing;
    if contentH < 0.0 {
      contentH := 0.0;
    }
    boundsMin := 0.0;
    boundsMax := MaxR(0.0, contentH - viewportH);
  }

  /** The first index at or after `i` whose top is greater than `y`, or `|p|`. */
  function FirstAboveFrom(p: seq<real>, y: real, i: nat): (k: nat)
    requires i <= |p|
    ensures i <= k <= |p|
    ensures forall j :: i <= j < k ==> p[j] <= y
    ensures k < |p| ==> p[k] > y
    decreases |p| - i
  {
    if i == |p| then |p| else if p[i] > y then i else FirstAboveFrom(p, y, i + 1)
  }

  /**
   * The first visible index for scroll offset `y`: 0 when `y <= 0`, otherwise
   * one before the first top greater than `y`, never below 0.
   */
  function FirstIndexAt(p: seq<real>, y: real): int
  {
    if y <= 0.0 then 0 else MaxI(0, FirstAboveFrom(p, y, 0) - 1)
  }

  /**
   * On a sorted table, the first visible index is the largest index whose top
   * is at most `y` (0 when there is none), and it always lies in `[0, max(0, n-1)]`.
   */
  lemma FirstIndexIsLargestTopAtOrAbove(p: seq<real>, y: real)
    requires Sorted(p) && y > 0.0
    ensures var r := FirstIndexAt(p, y);
      0 <= r <= MaxI(0, |p| - 1) &&
      (forall i :: 0 <= i < |p| && p[i] <= y ==> i <= r) &&
      (r > 0 ==> p[r] <= y)
  {
    var k := FirstAboveFrom(p, y, 0);
    forall i | 0 <= i < |p| && p[i] <= y
      ensures i < k
    {
      assert k < |p| ==> p[k] > y;
    }
  }

  /** The first index above `y` is the only split point of the table. */
  lemma FirstAboveUnique(p: seq<real>, y: real, k: nat)
    requires k <= |p|
    requires forall j :: 0 <= j < k ==> p[j] <= y
    requires k < |p| ==> p[k] > y
    ensures FirstAboveFrom(p, y, 0) == k
  {
  }

  /**
   * `_yToFirstIndex`: upper-bound binary search over the table of tops.
   * The result is always in `[0, max(0, n-1)]`, is 0 for `y <= 0`, and on a
   * sorted table it is `FirstIndexAt(p, y)`.
   */
  method YToFirstIndex(p: seq<real>, y: real) returns (r: int)
    ensures 0 <= r <= MaxI(0, |p| - 1)
    ensures y <= 0.0 ==> r == 0
    ensures Sorted(p) ==> r == FirstIndexAt(p, y)
  {
    if y <= 0.0 {
      return 0;
    }
    var n := |p|;
    var lo, hi, ans := 0, n - 1, n;
    while lo <= hi
      invariant 0 <= lo <= hi + 1 <= n
      invariant ans == hi + 1
      invariant Sorted(p) ==> forall i :: 0 <= i < lo ==> p[i] <= y
      invariant Sorted(p) ==> forall i :: hi < i < n ==> p[i] > y
      decreases hi - lo
    {
      var m := (lo + hi) / 2;
      if p[m] > y {
        ans := m;
        hi := m - 1;
      } else {
        lo := m + 1;
      }
    }
    r := MaxI(0, ans - 1);
    if Sorted(p) {
      FirstAboveUnique(p, y, ans);
    }
  }

  /** The first index at or after `i` whose top is at or below the viewport's bottom edge, or `|p|`. */
  function VisibleEnd(p: seq<real>, i: nat, bottom: real): (k: nat)
    requires i <= |p|
    ensures i <= k <= |p|
    ensures forall j :: i <= j < k ==> p[j] < bottom
    ensures k < |p| ==> p[k] >= bottom
    decreases |p| - i
  {
    if i == |p| then |p| else if p[i] >= bottom then i else VisibleEnd(p, i + 1, bottom)
  }

  /** The visible end is the only split point at or after `i`. */
  lemma VisibleEndUnique(p: seq<real>, i: nat, bottom: real, k: nat)
    requires i <= k <= |p|
    requires forall j :: i <= j < k ==> p[j] < bottom
    requires k < |p| ==> p[k] >= bottom
    ensures VisibleEnd(p, i, bottom) == k
  {
  }

  /** A half-open index range `[start, end)`. */
  datatype Range = Range(start: int, end: int)

  /** The visible range `[start, end)` for scroll offset `scrollY`, widened by `buffer` and clamped to `[0, n]`. */
  function VisibleRange(p: seq<real>, scrollY: real, viewportH: real, buffer: int): Range
  {
    var n := |p|;
    if n == 0 then Range(0, 0)
    else
      var s := FirstIndexAt(p, scrollY);
      var e := if s <= n then VisibleEnd(p, s, scrollY + viewportH) else n;
      Range(MaxI(0, s - buffer), MinI(n, e + buffer))
  }

  /**
   * `_calcVisibleRange`: `(0, 0)` for an empty table, otherwise a range inside
   * `[0, n]` with `start <= end`; on a sorted table it is `VisibleRange`.
   */
  method CalcVisibleRange(p: seq<real>, scrollY: real, viewportH: real, buffer: int)
    returns (start: int, end: int)
    requires buffer >= 0
    ensures |p| == 0 ==> start == 0 && end == 0
    ensures 0 <= start <= end <= |p|
    ensures Sorted(p) ==> Range(start, end) == VisibleRange(p, scrollY, viewportH, buffer)
  {
    var n := |p|;
    if n == 0 {
      return 0, 0;
    }
    var first := YToFirstIndex(p, scrollY);
    var bottom := scrollY + viewportH;
    var e := first;
    while e < n
      invariant first <= e <= n
      invariant forall j :: first <= j < e ==> p[j] < bottom
      decreases n - e
    {
      if p[e] >= bottom {
        break;
      }
      e := e + 1;
    }
    VisibleEndUnique(p, first, bottom, e);
    start := MaxI(0, first - buffer);
    end := MinI(n, e + buffer);
  }

  /**
   * On a sorted table the unbuffered end is the first index at or after the
   * first visible one whose top reaches `scrollY + viewportH`: every item in
   * the unbuffered range starts above that edge and every later item at or below it.
   */
  lemma VisibleEndSplitsAtBottom(p: seq<real>, scrollY: real, viewportH: real)
    requires Sorted(p) && |p| > 0
    ensures var s := FirstIndexAt(p, scrollY);
      var bottom := scrollY + viewportH;
      0 <= s < |p| &&
      var e := VisibleEnd(p, s, bottom);
      (forall i :: s <= i < e ==> p[i] < bottom) &&
      (forall i :: e <= i < |p| ==> p[i] >= bottom)
  {
    var s := FirstIndexAt(p, scrollY);
    var bottom := scrollY + viewportH;
    if scrollY > 0.0 {
      FirstIndexIsLargestTopAtOrAbove(p, scrollY);
    }
    var e := VisibleEnd(p, s, bottom);
    forall i | e <= i < |p|
      ensures p[i] >= bottom
    {
      assert p[e] <= p[i];
    }
  }

  /**
   * On strictly sorted tops from 0, the item after the first visible one
   * starts below the offset.
   */
  lemma NextTopBelowOffset(p: seq<real>, y: real)
    requires StrictlySorted(p) && |p| > 1 && p[0] == 0.0
    ensures var s := FirstIndexAt(p, y);
      0 <= s && (s + 1 < |p| ==> p[s + 1] > y)
  {
    if y > 0.0 {
      var k := FirstAboveFrom(p, y, 0);
      if k == 0 {
        assert p[0] < p[1];
      }
    } else {
      assert p[0] < p[1];
    }
  }

  /**
   * On strictly sorted tops, an item whose top lies between the offset and
   * the viewport's bottom edge is not before the first visible index and
   * not after the unbuffered end.
   */
  lemma ItemInViewLiesInRange(p: seq<real>, y: real, viewportH: real, i: int)
    requires StrictlySorted(p) && 0 <= i < |p|
    requires y <= p[i] <= y + viewportH
    ensures var s := FirstIndexAt(p, y);
      0 <= s <= i && i <= VisibleEnd(p, s, y + viewportH)
  {
    var s := FirstIndexAt(p, y);
    if y > 0.0 {
      FirstIndexIsLargestTopAtOrAbove(p, y);
      StrictOrder(p, i, s);
    }
    var e := VisibleEnd(p, s, y + viewportH);
    StrictOrder(p, e, i);
  }

  /** On strictly sorted tops, a later index has a greater top. */
  lemma StrictOrder(p: seq<real>, a: int, b: int)
    requires StrictlySorted(p)
    ensures 0 <= a < b < |p| ==> p[a] < p[b]
  {
  }

  /**
   * Scrolling so that the top of item `i` meets the top of the viewport makes
   * item `i` part of the visible range (tops strictly increasing from 0).
   */
  lemma RangeAtItemTopContainsItem(p: seq<real>, i: int, viewportH: real, buffer: int)
    requires StrictlySorted(p) && |p| > 0 && p[0] == 0.0
    requires 0 <= i < |p| && viewportH > 0.0 && buffer >= 0
    ensures VisibleRange(p, p[i], viewportH, buffer).start <= i < VisibleRange(p, p[i], viewportH, buffer).end
  {
    var y := p[i];
    var s := FirstIndexAt(p, y);
    if i > 0 {
      assert p[0] < p[i];
      FirstIndexIsLargestTopAtOrAbove(p, y);
      assert i <= s;
      assert s <= i by {
        assert s > 0 ==> p[s] <= p[i];
      }
    }
    var e := VisibleEnd(p, s, y + viewportH);
    assert p[s] < y + viewportH;
    assert e > i;
  }

  /**
   * Items of heights 16, 1, 1, 1 and 1 with no spacing start at 0, 16, 17,
   * 18 and 19, the content is 20 high, the smallest height is 1, and at
   * offset 16 a 4-high viewport shows items 1 to 4.
   */
  lemma TallFirstItemScenario()
    ensures Tops([16.0, 1.0, 1.0, 1.0, 1.0], 0.0) == [0.0, 16.0, 17.0, 18.0, 19.0]
    ensures ContentHeight([16.0, 1.0, 1.0, 1.0, 1.0], 0.0) == 20.0
    ensures MinHeight([16.0, 1.0, 1.0, 1.0, 1.0]) == 1.0
    ensures VisibleRange([0.0, 16.0, 17.0, 18.0, 19.0], 16.0, 4.0, 0) == Range(1, 5)
  {
    var hs := [16.0, 1.0, 1.0, 1.0, 1.0];
    assert Extent(hs[..0], 0.0) == 0.0;
    ExtentStep(hs, 0.0, 0);
    ExtentStep(hs, 0.0, 1);
    ExtentStep(hs, 0.0, 2);
    ExtentStep(hs, 0.0, 3);
    ExtentStep(hs, 0.0, 4);
    assert hs[..5] == hs;
    TopsAt(hs, 0.0, 0);
    TopsAt(hs, 0.0, 1);
    TopsAt(hs, 0.0, 2);
    TopsAt(hs, 0.0, 3);
    TopsAt(hs, 0.0, 4);
    var p := [0.0, 16.0, 17.0, 18.0, 19.0];
    FirstAboveUnique(p, 16.0, 2);
    VisibleEndUnique(p, 1, 20.0, 5);
  }

  /**
   * Five items of heights 50, 80, 30, 120 and 60 with spacing 10 start at
   * 0, 60, 150, 190 and 320, the content is 380 high, and at offset 100 a
   * 100-high viewport shows items 1 to 3.
   */
  lemma FiveItemScenario()
    ensures Tops([50.0, 80.0, 30.0, 120.0, 60.0], 10.0) == [0.0, 60.0, 150.0, 190.0, 320.0]
    ensures ContentHeight([50.0, 80.0, 30.0, 120.0, 60.0], 10.0) == 380.0
    ensures VisibleRange([0.0, 60.0, 150.0, 190.0, 320.0], 100.0, 100.0, 0) == Range(1, 4)
  {
    var hs := [50.0, 80.0, 30.0, 120.0, 60.0];
    assert Extent(hs[..0], 10.0) == 0.0;
    ExtentStep(hs, 10.0, 0);
    ExtentStep(hs, 10.0, 1);
    ExtentStep(hs, 10.0, 2);
    ExtentStep(hs, 10.0, 3);
    ExtentStep(hs, 10.0, 4);
    assert hs[..5] == hs;
    var t := Tops(hs, 10.0);
    TopsAt(hs, 10.0, 0);
    TopsAt(hs, 10.0, 1);
    TopsAt(hs, 10.0, 2);
    TopsAt(hs, 10.0, 3);
    TopsAt(hs, 10.0, 4);
    assert t == [0.0, 60.0, 150.0, 190.0, 320.0];
    var p := [0.0, 60.0, 150.0, 190.0, 320.0];
    FirstAboveUnique(p, 100.0, 2);
    VisibleEndUnique(p, 1, 200.0, 4);
  }
}

=== FILE: numeric.dfy ===
/**
 * Numeric helpers shared by the scroll view model: the host engine's clamp
 * (`cc.misc.clampf`), JavaScript's `Math.round` and the 32-bit truncation
 * that `x | 0` applies to an integer-valued number.
 */
module Numeric {

  function MinI(a: int, b: int): int { if a <= b then a else b }
  function MaxI(a: int, b: int): int { if a >= b then a else b }
  function MinR(a: real, b: real): real { if a <= b then a else b }
  function MaxR(a: real, b: real): real { if a >= b then a else b }
  function AbsI(a: int): nat { if a < 0 then -a else a }
  function AbsR(a: real): real { if a < 0.0 then -a else a }

  /**
   * `cc.misc.clampf(v, lo, hi)` on reals: the bounds are swapped first when
   * `lo > hi`, so the result always lies between the two bounds.
   */
  function ClampF(v: real, lo: real, hi: real): (r: real)
    ensures MinR(lo, hi) <= r <= MaxR(lo, hi)
    ensures MinR(lo, hi) <= v <= MaxR(lo, hi) ==> r == v
    ensures v < MinR(lo, hi) ==> r == MinR(lo, hi)
    ensures v > MaxR(lo, hi) ==> r == MaxR(lo, hi)
  {
    var a := MinR(lo, hi);
    var b := MaxR(lo, hi);
    if v < a then a else if v < b then v else b
  }

  /** The same clamp applied to integer-valued numbers (indices). */
  function ClampI(v: int, lo: int, hi: int): (r: int)
    ensures MinI(lo, hi) <= r <= MaxI(lo, hi)
    ensures MinI(lo, hi) <= v <= MaxI(lo, hi) ==> r == v
    ensures v < MinI(lo, hi) ==> r == MinI(lo, hi)
    ensures v > MaxI(lo, hi) ==> r == MaxI(lo, hi)
  {
    var a := MinI(lo, hi);
    var b := MaxI(lo, hi);
    if v < a then a else if v < b then v else b
  }

  /** `Math.round`: the nearest integer, halves rounded towards +infinity. */
  function Round(x: real): (r: real)
    ensures r.Floor as real == r
    ensures x - 0.5 < r <= x + 0.5
  {
    (x + 0.5).Floor as real
  }

  /** Rounding an already rounded value changes nothing. */
  lemma RoundIdempotent(x: real)
    ensures Round(Round(x)) == Round(x)
  {
    var r := Round(x);
    assert r + 0.5 == (r.Floor as real) + 0.5;
    assert (r + 0.5).Floor == r.Floor;
  }

  const TwoTo31: int := 0x8000_0000
  const TwoTo32: int := 0x1_0000_0000

  /** ECMAScript ToInt32, the conversion behind `x | 0`, on an integer. */
  function ToInt32(x: int): (r: int)
    ensures -TwoTo31 <= r < TwoTo31
    ensures (x - r) % TwoTo32 == 0
  {
    (x + TwoTo31) % TwoTo32 - TwoTo31
  }

  /** Counts that already fit in 32 bits pass through `| 0` unchanged. */
  lemma ToInt32Identity(x: int)
    requires -TwoTo31 <= x < TwoTo31
    ensures ToInt32(x) == x
  {
    assert 0 <= x + TwoTo31 < TwoTo32;
  }
}

=== FILE: physics.dfy ===
/**
 * One frame of the free-scroll physics (`update`): a spring-damper pulls the
 * content back when it is past either bound, inertia decays the velocity
 * inside the bounds, a slow velocity snaps to zero, and the offset moves by
 * `velocity * dt` only while the velocity is not zero.
 */
module Physics {
  import opened Numeric

  /**
   * The three `Math.exp(-inertiaDampK * m * dt)` factors of one frame, for the
   * multipliers `m = 0.7` (above 2000 units/s), `m = 1` (above 500 units/s,
   * and the flat curve) and `m = 1.3` (otherwise).
   */
  datatype DecayFactors = DecayFactors(high: real, mid: real, low: real)

  /** With a non-negative damping constant and frame time, each factor lies in (0, 1] and a larger multiplier decays more. */
  predicate ValidDecay(f: DecayFactors)
  {
    0.0 < f.low <= f.mid <= f.high <= 1.0
  }

  /** The speed tiers of the iOS-style curve. */
  const FastSpeed: real := 2000.0
  const MediumSpeed: real := 500.0

  /** The factor the velocity is multiplied by inside the bounds. */
  function InertiaFactor(v: real, iosCurve: bool, f: DecayFactors): (m: real)
    ensures m == f.high || m == f.mid || m == f.low
    ensures !iosCurve ==> m == f.mid
  {
    if !iosCurve then f.mid
    else if AbsR(v) > FastSpeed then f.high
    else if AbsR(v) > MediumSpeed then f.mid
    else f.low
  }

  /** Spring-damper acceleration towards the violated bound; zero inside the bounds. */
  function SpringAccel(y: real, v: real, boundsMin: real, boundsMax: real, springK: real, springC: real): real
  {
    if y < boundsMin then -springK * (y - boundsMin) - springC * v
    else if y > boundsMax then -springK * (y - boundsMax) - springC * v
    else 0.0
  }

  /** The physics parameters a frame reads. */
  datatype Params = Params(boundsMin: real, boundsMax: real, springK: real, springC: real,
                           velocitySnap: real, iosCurve: bool)

  /** The velocity after one frame of `dt` seconds at offset `y`. */
  function NextVelocity(y: real, v: real, dt: real, p: Params, f: DecayFactors): real
  {
    var a := SpringAccel(y, v, p.boundsMin, p.boundsMax, p.springK, p.springC);
    var decayed := if p.boundsMin <= y <= p.boundsMax then v * InertiaFactor(v, p.iosCurve, f) else v;
    var v' := decayed + a * dt;
    if AbsR(v') < p.velocitySnap && a == 0.0 then 0.0 else v'
  }

  /** The offset after the frame: moved by `v' * dt`, rounded when pixel alignment is on, and unchanged when `v'` is zero. */
  function NextOffset(y: real, v': real, dt: real, pixelAlign: bool): real
  {
    if v' == 0.0 then y
    else if pixelAlign then Round(y + v' * dt)
    else y + v' * dt
  }

  lemma MulShrinks(v: real, m: real)
    requires 0.0 < m <= 1.0
    ensures AbsR(v * m) <= AbsR(v)
    ensures v * (v * m) >= 0.0
  {
    if v >= 0.0 {
      assert v * m <= v * 1.0;
    } else {
      assert -(v * m) == (-v) * m;
      assert (-v) * m <= (-v) * 1.0;
    }
  }

  /** Inside the bounds the velocity only decays: it never grows and never reverses. */
  lemma InertiaNeverSpeedsUp(y: real, v: real, dt: real, p: Params, f: DecayFactors)
    requires ValidDecay(f)
    requires p.boundsMin <= y <= p.boundsMax
    ensures AbsR(NextVelocity(y, v, dt, p, f)) <= AbsR(v)
    ensures v * NextVelocity(y, v, dt, p, f) >= 0.0
  {
    MulShrinks(v, InertiaFactor(v, p.iosCurve, f));
    assert SpringAccel(y, v, p.boundsMin, p.boundsMax, p.springK, p.springC) * dt == 0.0;
  }

  /** Inside the bounds a velocity already below the snap threshold stops exactly. */
  lemma SnapStopsSlowMotion(y: real, v: real, dt: real, p: Params, f: DecayFactors)
    requires ValidDecay(f)
    requires p.boundsMin <= y <= p.boundsMax
    requires AbsR(v) < p.velocitySnap
    ensures NextVelocity(y, v, dt, p, f) == 0.0
  {
    MulShrinks(v, InertiaFactor(v, p.iosCurve, f));
  }

  /** Content at rest inside the bounds stays where it is. */
  lemma RestingInBoundsStays(y: real, dt: real, p: Params, f: DecayFactors, pixelAlign: bool)
    requires p.boundsMin <= y <= p.boundsMax
    ensures NextVelocity(y, 0.0, dt, p, f) == 0.0
    ensures NextOffset(y, NextVelocity(y, 0.0, dt, p, f), dt, pixelAlign) == y
  {
  }

  /**
   * Past a bound, with a positive spring and non-negative damping, a velocity
   * that is not already heading back is pushed towards the bounds.
   */
  lemma SpringPullsBack(y: real, v: real, dt: real, p: Params, f: DecayFactors)
    requires p.springK > 0.0 && p.springC >= 0.0 && dt > 0.0
    ensures y < p.boundsMin && v <= 0.0 ==> NextVelocity(y, v, dt, p, f) > v
    ensures y > p.boundsMax && p.boundsMin <= p.boundsMax && v >= 0.0 ==> NextVelocity(y, v, dt, p, f) < v
  {
    var a := SpringAccel(y, v, p.boundsMin, p.boundsMax, p.springK, p.springC);
    if y < p.boundsMin && v <= 0.0 {
      assert p.springK * (p.boundsMin - y) > 0.0;
      assert p.springC * v <= 0.0;
      assert a > 0.0;
      assert a * dt > 0.0;
    }
    if y > p.boundsMax && p.boundsMin <= p.boundsMax && v >= 0.0 {
      assert p.springK * (y - p.boundsMax) > 0.0;
      assert p.springC * v >= 0.0;
      assert a < 0.0;
      assert a * dt < 0.0;
    }
  }
}

=== FILE: sampler.dfy ===
/**
 * The pointer velocity sampler: every drag step records a `(time, delta)`
 * sample, samples older than the trailing window are dropped from the front,
 * and on release the velocity is estimated from the last few samples.
 */
module Sampler {
  import opened Numeric

  /** One drag step: its timestamp in seconds and its vertical delta. */
  datatype Sample = Sample(t: real, dy: real)

  /**
   * The trimming loop of `_onMove`: drop samples from the front while the
   * first one is older than `t0`. Only a stale prefix is dropped; a stale
   * sample behind a fresh one stays.
   */
  function DropStale(s: seq<Sample>, t0: real): (r: seq<Sample>)
    ensures |r| <= |s| && r == s[|s| - |r|..]
    ensures r != [] ==> r[0].t >= t0
    ensures forall i :: 0 <= i < |s| - |r| ==> s[i].t < t0
  {
    if s != [] && s[0].t < t0 then DropStale(s[1..], t0) else s
  }

  /** The sample just recorded is never dropped when the window is not negative. */
  lemma {:induction false} DropStaleKeepsNewest(s: seq<Sample>, x: Sample, t0: real)
    requires x.t >= t0
    ensures var r := DropStale(s + [x], t0); r != [] && r[|r| - 1] == x
  {
    if s != [] && s[0].t < t0 {
      assert (s + [x])[1..] == s[1..] + [x];
      DropStaleKeepsNewest(s[1..], x, t0);
    }
  }

  /** The trimming loop itself: pops the front sample while it is older than `t0`. */
  method TrimStale(s: seq<Sample>, t0: real) returns (r: seq<Sample>)
    ensures r == DropStale(s, t0)
  {
    r := s;
    while r != [] && r[0].t < t0
      invariant DropStale(r, t0) == DropStale(s, t0)
      decreases |r|
    {
      r := r[1..];
    }
  }

  /** Timestamps never decrease along the list. */
  predicate Chronological(s: seq<Sample>)
  {
    forall i, j :: 0 <= i <= j < |s| ==> s[i].t <= s[j].t
  }

  /** With chronological samples, what remains is exactly the samples inside the window. */
  lemma DropStaleKeepsWindow(s: seq<Sample>, t0: real)
    requires Chronological(s)
    ensures var r := DropStale(s, t0);
      (forall i :: 0 <= i < |r| ==> r[i].t >= t0) &&
      (forall i :: 0 <= i < |s| && s[i].t >= t0 ==> i >= |s| - |r|)
  {
    var r := DropStale(s, t0);
    if r != [] {
      forall i | 0 <= i < |r|
        ensures r[i].t >= t0
      {
        assert r[i] == s[|s| - |r| + i] && r[0] == s[|s| - |r|];
      }
    }
  }

  /** Sum of `dy` over samples `lo .. hi - 1`. */
  function SumDy(s: seq<Sample>, lo: nat, hi: nat): real
    requires lo <= hi <= |s|
    decreases hi - lo
  {
    if hi == lo then 0.0 else SumDy(s, lo, hi - 1) + s[hi - 1].dy
  }

  /** Sum of the time gaps `s[i].t - s[i - 1].t` for `i` in `lo .. hi - 1`. */
  function SumGaps(s: seq<Sample>, lo: nat, hi: nat): real
    requires 1 <= lo <= hi <= |s|
    decreases hi - lo
  {
    if hi == lo then 0.0 else SumGaps(s, lo, hi - 1) + (s[hi - 1].t - s[hi - 2].t)
  }

  /** The gaps telescope: their sum is the time elapsed from sample `lo - 1` to sample `hi - 1`. */
  lemma {:induction false} GapsTelescope(s: seq<Sample>, lo: nat, hi: nat)
    requires 1 <= lo <= hi <= |s|
    ensures SumGaps(s, lo, hi) == s[hi - 1].t - s[lo - 1].t
    decreases hi - lo
  {
    if hi > lo {
      GapsTelescope(s, lo, hi - 1);
    }
  }

  /** The number of trailing samples the estimate looks at: `min(len, 5)`. */
  const SampleLimit: nat := 5

  /** The fallback speed used for a single delta: one delta per frame at 60 frames per second. */
  const FrameRate: real := 60.0

  /** Minimum time span, in seconds, for the averaged estimate to be used. */
  const MinSpan: real := 0.001

  /**
   * `_onUp`'s velocity estimate: the summed deltas of the last `k - 1`
   * samples over the summed gaps between the last `k` (with
   * `k = min(len, 5)`), when that span exceeds `MinSpan`; otherwise the last
   * delta at `FrameRate`; `0` with no samples. Always clamped to
   * `±maxVelocity`.
   */
  function ReleaseVelocity(s: seq<Sample>, maxVelocity: real): (v: real)
    ensures MinR(-maxVelocity, maxVelocity) <= v <= MaxR(-maxVelocity, maxVelocity)
    ensures AbsR(v) <= AbsR(maxVelocity)
  {
    if |s| >= 2 then
      var start := |s| - MinI(|s|, SampleLimit);
      var sum := SumDy(s, start + 1, |s|);
      var span := SumGaps(s, start + 1, |s|);
      if span > MinSpan then ClampF(sum / span, -maxVelocity, maxVelocity)
      else ClampF(s[|s| - 1].dy * FrameRate, -maxVelocity, maxVelocity)
    else if |s| == 1 then ClampF(s[0].dy * FrameRate, -maxVelocity, maxVelocity)
    else 0.0
  }

  /**
   * The averaged estimate is displacement over elapsed time: the deltas after
   * the first of the last `k` samples, over the time from that first sample
   * to the last one.
   */
  lemma ReleaseVelocityIsDisplacementOverTime(s: seq<Sample>, maxVelocity: real)
    requires |s| >= 2
    ensures var start := |s| - MinI(|s|, SampleLimit);
      var elapsed := s[|s| - 1].t - s[start].t;
      ReleaseVelocity(s, maxVelocity) ==
        if elapsed > MinSpan then ClampF(SumDy(s, start + 1, |s|) / elapsed, -maxVelocity, maxVelocity)
        else ClampF(s[|s| - 1].dy * FrameRate, -maxVelocity, maxVelocity)
  {
    var start := |s| - MinI(|s|, SampleLimit);
    GapsTelescope(s, start + 1, |s|);
  }

  /** Three samples 20 ms apart give `(12 + 11) / 0.04 = 575` units per second. */
  lemma ReleaseVelocityExample()
    ensures ReleaseVelocity([Sample(0.0, 10.0), Sample(0.02, 12.0), Sample(0.04, 11.0)], 6000.0) == 575.0
    ensures ReleaseVelocity([Sample(0.0, 10.0), Sample(0.02, 12.0), Sample(0.04, 11.0)], 500.0) == 500.0
  {
    var s := [Sample(0.0, 10.0), Sample(0.02, 12.0), Sample(0.04, 11.0)];
    assert SumDy(s, 1, 3) == 23.0;
    assert SumGaps(s, 1, 3) == 0.04;
  }

  /** The loop of `_onUp`, proved to compute the release velocity. */
  method EstimateReleaseVelocity(s: seq<Sample>, maxVelocity: real) returns (v: real)
    ensures v == ReleaseVelocity(s, maxVelocity)
  {
    if |s| >= 2 {
      var sum := 0.0;
      var span := 0.0;
      var count := MinI(|s|, SampleLimit);
      var start := |s| - count;
      for i := start + 1 to |s|
        invariant sum == SumDy(s, start + 1, i)
        invariant span == SumGaps(s, start + 1, i)
      {
        sum := sum + s[i].dy;
        span := span + (s[i].t - s[i - 1].t);
      }
      if span > MinSpan {
        v := ClampF(sum / span, -maxVelocity, maxVelocity);
      } else {
        v := ClampF(s[|s| - 1].dy * FrameRate, -maxVelocity, maxVelocity);
      }
    } else if |s| == 1 {
      v := ClampF(s[0].dy * FrameRate, -maxVelocity, maxVelocity);
    } else {
      v := 0.0;
    }
  }
}

=== FILE: scrollview.dfy ===
/**
 * The virtual scroll view component: configuration, scroll state, the slot
 * pool and the touch and frame handlers that drive them.
 *
 * The pool's bookkeeping is specified by the functions of `SlotRing`, the
 * layout by `Layout` and `Grid`, the release velocity by `Sampler` and one
 * frame of motion by `Physics`; each method here is proved to perform
 * exactly what those functions describe, and keeps `Valid()`.
 */
module ScrollView {
  import opened Numeric
  import opened SlotRing
  import Layout
  import Grid
  import Sampler
  import Physics

  /**
   * The inspector options the core reads. `virtualList` off is the simple
   * scroll mode (no pool); `dynamicHeight` picks the variable-height single
   * column over the fixed grid.
   */
  datatype Config = Config(
    virtualList: bool,
    dynamicHeight: bool,
    columns: int,
    itemHeight: real,
    spacing: real,
    buffer: int,
    pixelAlign: bool,
    viewportH: real,
    springK: real,
    springC: real,
    velocitySnap: real,
    velocityWindow: real,
    maxVelocity: real,
    iosCurve: bool)

  /**
   * What the core needs of its options: at least one column (the start-up
   * code rounds and raises `columns` to 1), a non-negative buffer and
   * viewport, in the grid a non-negative item height (the prefab's height)
   * and a positive row stride, and a non-negative spacing in the
   * variable-height list so that item tops never decrease.
   */
  predicate ConfigOk(c: Config)
  {
    c.columns >= 1 && c.buffer >= 0 && c.viewportH >= 0.0 &&
    (!c.dynamicHeight ==> c.itemHeight >= 0.0 && c.itemHeight + c.spacing > 0.0) &&
    (c.dynamicHeight ==> c.spacing >= 0.0)
  }

  /**
   * Pool size of the variable-height list: `min(count, ceil(viewportH / avg) + 2 * buffer + 2)`
   * with `avg = contentH / count`, as start-up computes it; no slots for an
   * empty list. The branch
   * for content without height (one slot per item) is never taken from the
   * constructor, whose non-negative node heights give every item a positive
   * height.
   */
  function DynamicSlotCount(count: int, contentH: real, viewportH: real, buffer: int): int
  {
    if count <= 0 then 0
    else if contentH <= 0.0 then count
    else
      var avg := contentH / count as real;
      MinI(count, Grid.Ceil(viewportH / avg) + 2 * buffer + 2)
  }

  /**
   * Pool size of the variable-height list sized from the smallest item
   * height rather than the average: `min(count, ceil(viewportH / minH) + 2 * buffer + 2)`,
   * no slots for an empty list.
   */
  function MinHeightSlotCount(hs: seq<real>, viewportH: real, buffer: int): (n: int)
    requires Layout.Positive(hs)
    ensures n <= |hs|
  {
    if |hs| == 0 then 0
    else MinI(|hs|, Grid.Ceil(viewportH / Layout.MinHeight(hs)) + 2 * buffer + 2)
  }

  /**
   * With positive heights, the unbuffered visible range at any offset spans
   * at most `ceil(viewportH / minH) + 1` items: every item after the first
   * visible one starts below the offset and above the viewport's bottom
   * edge, and such tops are at least `minH` apart.
   */
  lemma VisibleSpan(hs: seq<real>, spacing: real, y: real, viewportH: real)
    requires Layout.Positive(hs) && spacing >= 0.0 && viewportH >= 0.0 && |hs| > 0
    ensures var p := Layout.Tops(hs, spacing);
      var s := Layout.FirstIndexAt(p, y);
      0 <= s < |p| &&
      Layout.VisibleEnd(p, s, y + viewportH) - s <= Grid.Ceil(viewportH / Layout.MinHeight(hs)) + 1
  {
    var p := Layout.Tops(hs, spacing);
    var s := Layout.FirstIndexAt(p, y);
    assert 0 <= s < |p| by {
      Layout.TopsSorted(hs, spacing);
      Layout.VisibleEndSplitsAtBottom(p, y, viewportH);
    }
    var e := Layout.VisibleEnd(p, s, y + viewportH);
    if e - s >= 2 {
      assert p[s + 1] > y by {
        Layout.TopsSorted(hs, spacing);
        Layout.PrefixSumInvariant(hs, spacing);
        Layout.NextTopBelowOffset(p, y);
      }
      SpanOfTops(hs, spacing, y, viewportH, s, e);
    }
  }

  /**
   * Items `s + 1` to `e - 1`, starting below the offset `y` and above the
   * viewport's bottom edge, number fewer than `ceil(viewportH / minH)`.
   */
  lemma SpanOfTops(hs: seq<real>, spacing: real, y: real, viewportH: real, s: int, e: int)
    requires Layout.Positive(hs) && spacing >= 0.0 && viewportH >= 0.0
    requires 0 <= s && s + 1 <= e - 1 < |hs|
    requires Layout.Tops(hs, spacing)[s + 1] > y
    requires Layout.Tops(hs, spacing)[e - 1] < y + viewportH
    ensures (e - 1) - (s + 1) < Grid.Ceil(viewportH / Layout.MinHeight(hs))
  {
    var m := Layout.MinHeight(hs);
    Layout.TopsGap(hs, spacing, m, s + 1, e - 1);
    SpanBelowCeil(Layout.Tops(hs, spacing)[s + 1], Layout.Tops(hs, spacing)[e - 1], y, viewportH, m, (e - 1) - (s + 1));
  }

  /**
   * Tops `d` minimum heights apart, the upper one below the offset and the
   * lower one above the viewport's bottom edge, give `d < ceil(viewportH / m)`.
   */
  lemma SpanBelowCeil(a: real, b: real, y: real, viewportH: real, m: real, d: int)
    requires m > 0.0 && viewportH >= 0.0 && d >= 0
    requires a > y && b < y + viewportH && b - a >= d as real * m
    ensures d < Grid.Ceil(viewportH / m)
  {
    var c := Grid.Ceil(viewportH / m);
    CeilCovers(viewportH, m);
    if d >= c {
      Grid.MulMonotone(c as real, d as real, m);
    }
  }

  /**
   * The corrected pool holds the whole buffered visible range at any
   * offset: the window starting at the range's start reaches its end.
   */
  lemma MinHeightPoolCoversVisibleRange(hs: seq<real>, spacing: real, y: real, viewportH: real, buffer: int)
    requires Layout.Positive(hs) && spacing >= 0.0 && viewportH >= 0.0 && buffer >= 0
    ensures var r := Layout.VisibleRange(Layout.Tops(hs, spacing), y, viewportH, buffer);
      0 <= r.start <= r.end <= |hs| && r.end - r.start <= MinHeightSlotCount(hs, viewportH, buffer)
  {
    if |hs| > 0 {
      VisibleSpan(hs, spacing, y, viewportH);
    }
  }

  /**
   * In the variable-height list, the jump to item `i` (its top, clamped to
   * the scroll bounds) leaves the top of `i` between the offset and the
   * viewport's bottom edge.
   */
  lemma ClampedTopInView(hs: seq<real>, spacing: real, viewportH: real, i: int, y: real)
    requires Layout.Positive(hs) && spacing >= 0.0 && viewportH >= 0.0 && 0 <= i < |hs|
    requires y == ClampF(Layout.Tops(hs, spacing)[i], 0.0,
                         MaxR(0.0, Layout.ContentHeight(hs, spacing) - viewportH))
    ensures y <= Layout.Tops(hs, spacing)[i] <= y + viewportH
  {
    var p := Layout.Tops(hs, spacing);
    var n := |hs|;
    Layout.PrefixSumInvariant(hs, spacing);
    Layout.TopsSorted(hs, spacing);
    assert 0.0 <= p[i] < Layout.ContentHeight(hs, spacing) by {
      assert p[0] <= p[i] <= p[n - 1];
    }
  }

  /**
   * In the variable-height list with the corrected pool, the window after a
   * jump to item `i` contains `i`, whether or not the bounds clamp the jump:
   * the window starts at the buffered range's start and the pool reaches
   * past the unbuffered end.
   */
  lemma DynamicJumpContainsIndex(hs: seq<real>, spacing: real, viewportH: real, buffer: int, i: int, y: real)
    requires Layout.Positive(hs) && spacing >= 0.0 && viewportH >= 0.0 && buffer >= 0 && 0 <= i < |hs|
    requires y == ClampF(Layout.Tops(hs, spacing)[i], 0.0,
                         MaxR(0.0, Layout.ContentHeight(hs, spacing) - viewportH))
    ensures var r := Layout.VisibleRange(Layout.Tops(hs, spacing), y, viewportH, buffer);
      r.start <= i < r.start + MinHeightSlotCount(hs, viewportH, buffer)
  {
    var p := Layout.Tops(hs, spacing);
    var s := Layout.FirstIndexAt(p, y);
    assert 0 <= s <= i && i <= Layout.VisibleEnd(p, s, y + viewportH) by {
      ClampedTopInView(hs, spacing, viewportH, i, y);
      Layout.TopsSorted(hs, spacing);
      Layout.ItemInViewLiesInRange(p, y, viewportH, i);
    }
    VisibleSpan(hs, spacing, y, viewportH);
  }

  /**
   * The average-height pool can miss a visible item. Heights 16, 1, 1, 1, 1
   * with spacing 0 and a 4-high viewport average 4, so the pool has 3
   * slots. Jumping to item 4 (top 19) is clamped to the upper bound 16, where
   * items 1 to 4 are visible but the window holds items 1 to 3 only. Sized
   * from the smallest height, the pool has 5 slots.
   */
  lemma AveragePoolMissesItem()
    ensures var hs := [16.0, 1.0, 1.0, 1.0, 1.0];
      var p := [0.0, 16.0, 17.0, 18.0, 19.0];
      var contentH := 20.0;
      var n := DynamicSlotCount(5, contentH, 4.0, 0);
      var y := ClampF(p[4], 0.0, MaxR(0.0, contentH - 4.0));
      var r := Layout.VisibleRange(p, y, 4.0, 0);
      Layout.Tops(hs, 0.0) == p && Layout.ContentHeight(hs, 0.0) == contentH &&
      n == 3 && y == 16.0 && r == Layout.Range(1, 5) && !(r.start <= 4 < r.start + n) &&
      MinHeightSlotCount(hs, 4.0, 0) == 5
  {
    var hs := [16.0, 1.0, 1.0, 1.0, 1.0];
    var p := [0.0, 16.0, 17.0, 18.0, 19.0];
    Layout.TallFirstItemScenario();
    assert DynamicSlotCount(5, 20.0, 4.0, 0) == 3 by {
      assert 20.0 / 5 as real == 4.0;
      assert Grid.Ceil(4.0 / 4.0) == 1;
    }
    assert MinHeightSlotCount(hs, 4.0, 0) == 5 by {
      assert Grid.Ceil(4.0 / 1.0) == 4;
    }
  }

  /** The grid pool always holds at least two full rows. */
  lemma FixedSlotCountHoldsTwoRows(viewportH: real, stride: real, buffer: int, columns: int)
    requires viewportH >= 0.0 && stride > 0.0 && buffer >= 0 && columns >= 1
    ensures Grid.FixedSlotCount(viewportH, stride, buffer, columns) >= 2 * columns
  {
    var c := Grid.Ceil(viewportH / stride);
    assert viewportH / stride >= 0.0;
    Grid.MulMonotoneInt(2, c + buffer + 2, columns);
  }

  /**
   * In the grid, scrolling to the top of an item's row puts the item inside
   * the window: the window starts at the row's first cell (or at 0 when the
   * list is shorter than the pool) and spans at least one row.
   */
  lemma GridWindowContainsScrolledIndex(stride: real, columns: int, total: int, slotCount: int, i: int)
    requires stride > 0.0 && columns >= 1 && 0 <= i < total && slotCount >= columns
    ensures var top := Grid.GridScrollTarget(i, columns, stride);
      var f := if total < slotCount then 0 else Grid.GridFirstIndex(top, stride, columns, total);
      f <= i < f + slotCount
  {
    Grid.GridScrollRoundTrip(i, columns, stride, total);
  }

  /**
   * In the grid, when an item's row top lies past the upper bound, the jump
   * is clamped to that bound, and the window there still contains the item:
   * the window starts at or before the item's row, and the pool's
   * `ceil(viewportH / stride) + 2` rows reach the last row.
   */
  lemma GridClampedWindowContainsIndex(itemHeight: real, spacing: real, viewportH: real, buffer: int,
                                       columns: int, total: int, i: int)
    requires itemHeight >= 0.0 && itemHeight + spacing > 0.0 && viewportH >= 0.0 && buffer >= 0
    requires columns >= 1 && 0 <= i < total
    requires Grid.RowTop(i, columns, itemHeight + spacing)
      > MaxR(0.0, Grid.GridContentHeight(total, columns, itemHeight, spacing) - viewportH)
    ensures var stride := itemHeight + spacing;
      var top := MaxR(0.0, Grid.GridContentHeight(total, columns, itemHeight, spacing) - viewportH);
      var n := Grid.FixedSlotCount(viewportH, stride, buffer, columns);
      var f := if total < n then 0 else Grid.GridFirstIndex(top, stride, columns, total);
      f <= i < f + n
  {
    var stride := itemHeight + spacing;
    var top := MaxR(0.0, Grid.GridContentHeight(total, columns, itemHeight, spacing) - viewportH);
    assert top >= ((total - 1) / columns) as real * stride + itemHeight - viewportH by {
      TopAboveLastRow(total, columns, itemHeight, spacing, viewportH);
    }
    WindowAtClamp(stride, itemHeight, viewportH, buffer, columns, total, i, top);
  }

  /** `GridClampedWindowContainsIndex` for a clamped offset `top`. */
  lemma WindowAtClamp(stride: real, itemHeight: real, viewportH: real, buffer: int, columns: int, total: int, i: int, top: real)
    requires stride > 0.0 && itemHeight >= 0.0 && viewportH >= 0.0 && buffer >= 0 && top >= 0.0
    requires columns >= 1 && 0 <= i < total
    requires top >= ((total - 1) / columns) as real * stride + itemHeight - viewportH
    requires (i / columns) as real * stride > top
    ensures var n := Grid.FixedSlotCount(viewportH, stride, buffer, columns);
      var f := if total < n then 0 else Grid.GridFirstIndex(top, stride, columns, total);
      f <= i < f + n
  {
    var n := Grid.FixedSlotCount(viewportH, stride, buffer, columns);
    if total >= n {
      ClampedRows(stride, itemHeight, viewportH, top, total, columns, i);
      WindowFromRows(i, columns, total, buffer, (top / stride).Floor, Grid.Ceil(viewportH / stride),
                     Grid.GridFirstIndex(top, stride, columns, total), n);
    }
  }

  /**
   * In the grid, the window at the offset a jump to item `i` lands on (the
   * top of its row, clamped to the scroll bounds) contains `i`.
   */
  lemma GridJumpContainsIndex(cfg: Config, total: int, slotCount: int, i: int, y: real)
    requires ConfigOk(cfg) && !cfg.dynamicHeight && 0 <= i < total
    requires slotCount == Grid.FixedSlotCount(cfg.viewportH, cfg.itemHeight + cfg.spacing, cfg.buffer, cfg.columns)
    requires y == ClampF(Grid.GridScrollTarget(i, cfg.columns, cfg.itemHeight + cfg.spacing), 0.0,
                         MaxR(0.0, Grid.GridContentHeight(total, cfg.columns, cfg.itemHeight, cfg.spacing) - cfg.viewportH))
    ensures var f := if total < slotCount then 0
                     else Grid.GridFirstIndex(y, cfg.itemHeight + cfg.spacing, cfg.columns, total);
      f <= i < f + slotCount
  {
    var stride := cfg.itemHeight + cfg.spacing;
    var target := Grid.GridScrollTarget(i, cfg.columns, stride);
    var bound := MaxR(0.0, Grid.GridContentHeight(total, cfg.columns, cfg.itemHeight, cfg.spacing) - cfg.viewportH);
    assert target >= 0.0 by {
      Grid.MulMonotone(0.0, (i / cfg.columns) as real, stride);
    }
    if target <= bound {
      assert y == target;
      UnclampedJump(stride, cfg.viewportH, cfg.buffer, cfg.columns, total, slotCount, i, y);
    } else {
      assert y == bound;
      GridClampedWindowContainsIndex(cfg.itemHeight, cfg.spacing, cfg.viewportH, cfg.buffer, cfg.columns, total, i);
    }
  }

  /** `GridJumpContainsIndex` when the row top lies within the bounds. */
  lemma UnclampedJump(stride: real, viewportH: real, buffer: int, columns: int, total: int, slotCount: int, i: int, y: real)
    requires stride > 0.0 && viewportH >= 0.0 && buffer >= 0 && columns >= 1 && 0 <= i < total
    requires slotCount == Grid.FixedSlotCount(viewportH, stride, buffer, columns)
    requires y == Grid.GridScrollTarget(i, columns, stride)
    ensures var f := if total < slotCount then 0 else Grid.GridFirstIndex(y, stride, columns, total);
      f <= i < f + slotCount
  {
    FixedSlotCountHoldsTwoRows(viewportH, stride, buffer, columns);
    GridWindowContainsScrolledIndex(stride, columns, total, slotCount, i);
  }

  /**
   * With the offset `top` no lower than the last row's bottom less the
   * viewport height, an item whose row top lies below `top` is in a row
   * between the row of `top` and `ceil(viewportH / stride)` rows after it.
   */
  lemma ClampedRows(stride: real, itemHeight: real, viewportH: real, top: real, total: int, columns: int, i: int)
    requires stride > 0.0 && itemHeight >= 0.0 && viewportH >= 0.0 && top >= 0.0
    requires columns >= 1 && 0 <= i < total
    requires top >= ((total - 1) / columns) as real * stride + itemHeight - viewportH
    requires (i / columns) as real * stride > top
    ensures var k := (top / stride).Floor; var c := Grid.Ceil(viewportH / stride);
      0 <= k <= i / columns <= k + c && 0 <= c
  {
    Grid.FloorBand(top, stride);
    FloorNonNegative(top, stride);
    RowsFromBand(stride, itemHeight, viewportH, top, total, columns, i, (top / stride).Floor);
  }

  /** `ClampedRows` for the row `k` whose band contains `top`. */
  lemma RowsFromBand(stride: real, itemHeight: real, viewportH: real, top: real, total: int, columns: int, i: int, k: int)
    requires stride > 0.0 && itemHeight >= 0.0 && viewportH >= 0.0
    requires columns >= 1 && 0 <= i < total
    requires top >= ((total - 1) / columns) as real * stride + itemHeight - viewportH
    requires (i / columns) as real * stride > top
    requires k as real * stride <= top < k as real * stride + stride
    ensures var c := Grid.Ceil(viewportH / stride);
      k <= i / columns <= k + c && 0 <= c
  {
    CeilCovers(viewportH, stride);
    Grid.DivMonotone(i, total - 1, columns);
    RowsFromOffset(stride, itemHeight, viewportH, top, k, Grid.Ceil(viewportH / stride), (total - 1) / columns, i / columns);
  }

  /**
   * A window starting at row `k` with a pool of `c + buffer + 2` rows holds
   * every index whose row lies between row `k` and row `k + c`.
   */
  lemma WindowFromRows(i: int, columns: int, total: int, buffer: int, k: int, c: int, f: int, n: int)
    requires columns >= 1 && buffer >= 0 && 0 <= i < total && 0 <= c
    requires 0 <= k <= i / columns <= k + c
    requires f == ClampI(k * columns, 0, MaxI(0, total - 1))
    requires n == MaxI(1, (c + buffer + 2) * columns)
    ensures f <= i < f + n
  {
    IndexInRows(i, columns, k, c + buffer + 2);
  }

  /**
   * The rows a window starting at the row `k` of offset `top` must reach: a
   * row whose top lies below `top` comes after row `k`, and the last row,
   * whose bottom lies at most `viewportH` below `top`, is at most `c` rows
   * after it.
   */
  lemma RowsFromOffset(stride: real, itemHeight: real, viewportH: real, top: real, k: int, c: int, last: int, row: int)
    requires stride > 0.0 && itemHeight >= 0.0
    requires row as real * stride > top
    requires top >= last as real * stride + itemHeight - viewportH
    requires k as real * stride <= top < k as real * stride + stride
    requires viewportH <= c as real * stride
    ensures k < row && last <= k + c
  {
    RowAfterStart(row, k, stride, top);
    LastRowInWindow(last, k, c, stride, itemHeight, viewportH, top);
  }

  /** The upper bound is no lower than the last row's bottom less the viewport height. */
  lemma TopAboveLastRow(total: int, columns: int, itemHeight: real, spacing: real, viewportH: real)
    requires total >= 1 && columns >= 1 && itemHeight + spacing >= 0.0
    ensures MaxR(0.0, Grid.GridContentHeight(total, columns, itemHeight, spacing) - viewportH)
      >= ((total - 1) / columns) as real * (itemHeight + spacing) + itemHeight - viewportH
  {
    ContentHeightOfLast(total, columns, itemHeight, spacing);
  }

  /** The row of a non-negative offset is not negative. */
  lemma FloorNonNegative(x: real, d: real)
    requires x >= 0.0 && d > 0.0
    ensures (x / d).Floor >= 0
  {
    assert x / d >= 0.0;
  }

  /** A non-empty grid's content height is the top of its last row plus one item height. */
  lemma ContentHeightOfLast(total: int, columns: int, itemHeight: real, spacing: real)
    requires total >= 1 && columns >= 1 && itemHeight + spacing >= 0.0
    ensures Grid.GridContentHeight(total, columns, itemHeight, spacing)
      == ((total - 1) / columns) as real * (itemHeight + spacing) + itemHeight
  {
    Grid.GridContentHeightIsLastBottom(total, columns, itemHeight, spacing);
  }

  /** A viewport of height `viewportH` spans at most `ceil(viewportH / stride)` strides. */
  lemma CeilCovers(viewportH: real, stride: real)
    requires viewportH >= 0.0 && stride > 0.0
    ensures 0 <= Grid.Ceil(viewportH / stride)
    ensures viewportH <= Grid.Ceil(viewportH / stride) as real * stride
  {
    assert viewportH / stride >= 0.0;
    Grid.DivScale(viewportH, stride);
    Grid.MulMonotone(viewportH / stride, Grid.Ceil(viewportH / stride) as real, stride);
  }

  /**
   * With the offset no lower than the last row's bottom less the viewport
   * height, the last row lies within `c` rows after the row of the offset.
   */
  lemma LastRowInWindow(last: int, k: int, c: int, stride: real, itemHeight: real, viewportH: real, top: real)
    requires stride > 0.0 && itemHeight >= 0.0
    requires top >= last as real * stride + itemHeight - viewportH
    requires top < k as real * stride + stride
    requires viewportH <= c as real * stride
    ensures last <= k + c
  {
    if last >= k + c + 1 {
      Grid.MulMonotone((k + c + 1) as real, last as real, stride);
      Grid.MulAddReal((k + 1) as real, c as real, stride);
      Grid.MulAddReal(k as real, 1.0, stride);
      assert false;
    }
  }

  /** A row whose top lies below the offset comes after the offset's row. */
  lemma RowAfterStart(row: int, k: int, stride: real, top: real)
    requires stride > 0.0
    requires row as real * stride > top >= k as real * stride
    ensures row > k
  {
    if row <= k {
      Grid.MulMonotone(row as real, k as real, stride);
    }
  }

  /** An index in a row from `k` to `k + m - 2` lies in the `m` rows of cells starting at row `k`. */
  lemma IndexInRows(i: int, columns: int, k: int, m: int)
    requires columns >= 1 && i >= 0 && k >= 0
    requires k <= i / columns && i / columns + 2 <= k + m
    ensures 0 <= k * columns <= i < k * columns + m * columns
  {
    var row := i / columns;
    Grid.MulMonotoneInt(0, k, columns);
    assert i == row * columns + i % columns;
    Grid.MulMonotoneInt(k, row, columns);
    Grid.MulDiff(row + 1, row, columns);
    Grid.MulMonotoneInt(row + 1, k + m, columns);
    Grid.MulDiff(k + m, k, columns);
  }

  /**
   * Dragging a single-column list (400-high viewport, 100-high rows, spacing
   * 8, no buffer) from 0 to 540 moves the six-slot window by five items.
   * That is less than the pool, so the window is rotated and not laid out
   * again: the slot that showed item 5 becomes the first slot, and only
   * items 6 to 10 are placed, leave the pending set and fire hooks.
   */
  lemma DragScenario(r: Ring)
    requires |r.slots| == Grid.FixedSlotCount(400.0, 108.0, 0, 1)
    ensures var r' := Shift(r, 0, Grid.GridFirstIndex(540.0, 108.0, 1, 50), 50, false);
      r'.slots[0] == r.slots[5] &&
      r'.pending == r.pending - {6, 7, 8, 9, 10} &&
      r.trace <= r'.trace && |r'.trace| <= |r.trace| + 10 &&
      forall k :: |r.trace| <= k < |r'.trace| ==> 6 <= r'.trace[k].index <= 10
  {
    Grid.SingleColumnScenario();
    var r' := Shift(r, 0, 5, 50, false);
    var e := Entering(5, 50, 1, 6);
    assert r'.slots[0] == r.slots[5] && r'.pending == r.pending - e &&
      r.trace <= r'.trace && |r'.trace| <= |r.trace| + 10 &&
      forall k :: |r.trace| <= k < |r'.trace| ==> r'.trace[k].index in e
    by {
      ShiftCases(r, 0, 5, 50, false);
    }
    assert e == {6, 7, 8, 9, 10};
  }

  /** Only render hooks: the appear count is unaffected by them. */
  lemma RefreshKeepsAppearCount(t: seq<Hook>, slots: seq<Slot>, first: int, total: int, index: int, j: int)
    ensures AppearCount(t + SlotRing.Refresh(slots, first, total, index), j) == AppearCount(t, j)
  {
    var h := SlotRing.Refresh(slots, first, total, index);
    if h != [] {
      AppearCountSnoc(t, h[0], j);
      assert h == [h[0]];
    } else {
      assert t + h == t;
    }
  }

  /** Every index's budget equals the number of times it has become pending. */
  ghost predicate Paid(r: Ring, armed: multiset<int>)
  {
    forall j {:trigger Budget(r, j)} :: Budget(r, j) == armed[j]
  }

  /**
   * The geometry start-up computes in each mode: the item heights and their
   * tops (variable heights only), the content height, the content node's
   * height and the upper scroll bound.
   */
  method InitialGeometry(cfg: Config, count: int, nodeHeights: seq<real>, contentNodeH: real)
    returns (itemHeights: seq<real>, prefixY: seq<real>, contentH: real, nodeH: real, boundsMax: real)
    requires ConfigOk(cfg)
    requires cfg.virtualList && cfg.dynamicHeight ==> Layout.NonNegative(nodeHeights)
    ensures Layout.Sorted(prefixY) && boundsMax >= 0.0
    ensures !cfg.virtualList ==>
      contentH == contentNodeH && nodeH == contentNodeH && boundsMax == MaxR(0.0, contentH - cfg.viewportH)
    ensures cfg.virtualList && !cfg.dynamicHeight ==>
      contentH == Grid.GridContentHeight(count, cfg.columns, cfg.itemHeight, cfg.spacing) &&
      nodeH == MaxR(contentH, cfg.viewportH) && boundsMax == MaxR(0.0, contentH - cfg.viewportH)
    ensures cfg.virtualList && cfg.dynamicHeight ==>
      itemHeights == Layout.ItemHeights(nodeHeights) &&
      prefixY == Layout.Tops(itemHeights, cfg.spacing) &&
      contentH == Layout.ContentHeight(itemHeights, cfg.spacing) &&
      nodeH == MaxR(contentH, cfg.viewportH) && boundsMax == MaxR(0.0, contentH - cfg.viewportH)
  {
    if cfg.virtualList && cfg.dynamicHeight {
      itemHeights := Layout.ItemHeights(nodeHeights);
      var lo;
      prefixY, contentH, lo, boundsMax := Layout.BuildPrefixSum(itemHeights, cfg.spacing, cfg.viewportH);
      Layout.TopsSorted(itemHeights, cfg.spacing);
      nodeH := MaxR(contentH, cfg.viewportH);
    } else {
      itemHeights := [];
      prefixY := [];
      contentH := if cfg.virtualList then Grid.GridContentHeight(count, cfg.columns, cfg.itemHeight, cfg.spacing)
                  else contentNodeH;
      nodeH := if cfg.virtualList then MaxR(contentH, cfg.viewportH) else contentNodeH;
      boundsMax := MaxR(0.0, contentH - cfg.viewportH);
    }
  }

  /** Nodes of a freshly built pool: node `i` in slot `i`, shown, with no data index yet. */
  function InitialSlots(n: nat): (s: seq<Slot>)
    ensures |s| == n
  {
    seq(n, i requires 0 <= i < n => Slot(i, true, -1))
  }

  class VirtualScrollView {
    const cfg: Config
    /** Item heights (after `height || 100`) and their tops, variable-height list only. */
    const itemHeights: seq<real>
    const prefixY: seq<real>
    /** `_slots`: the pool size, fixed at start-up. */
    const slotCount: nat
    /** The nodes created for the pool; the pool only ever permutes them. */
    ghost const pool: multiset<NodeId>

    var totalCount: int
    var contentH: real
    /** The height written to the content node, `max(contentH, viewportH)`. */
    var contentNodeH: real
    var boundsMin: real
    var boundsMax: real
    /** `content.y`, the scroll offset. */
    var contentY: real
    var velocity: real
    var isTouching: bool
    var samples: seq<Sampler.Sample>
    /** `_slotFirstIndex`. */
    var first: int
    /** `_slotNodes` with each node's shown flag and data index. */
    var slots: seq<Slot>
    /** `_needAnimateIndices`. */
    var pending: set<int>
    /** Render and appear hooks fired so far. */
    var trace: seq<Hook>
    /** How many times each index has become pending. */
    ghost var armed: multiset<int>

    function State(): Ring
      reads this`slots, this`pending, this`trace
    {
      Ring(slots, pending, trace)
    }

    /**
     * The component invariant: the pool has its fixed size and only ever
     * holds its own nodes, every slot obeys the window invariant, every
     * appear hook is paid for by one arming of its index (with one still
     * owed while the index is pending), the item tops are sorted, the
     * scroll bounds start at 0, in the grid the content height and upper
     * bound follow the item count, and in the variable-height list the tops
     * and upper bound follow the positive item heights and the pool is sized
     * from their average, as start-up computes it.
     */
    ghost predicate Valid()
      reads this`slots, this`first, this`totalCount, this`pending, this`trace, this`armed,
            this`boundsMin, this`boundsMax, this`contentH
    {
      Sound() && first >= 0 && WindowInvariant(slots, first, totalCount)
    }

    /** The component invariant apart from the window: what a full relayout needs to restore it. */
    ghost predicate Sound()
      reads this`slots, this`totalCount, this`pending, this`trace, this`armed,
            this`boundsMin, this`boundsMax, this`contentH
    {
      ConfigOk(cfg) &&
      (!cfg.virtualList ==> slotCount == 0) &&
      (cfg.virtualList && !cfg.dynamicHeight ==>
        slotCount == Grid.FixedSlotCount(cfg.viewportH, cfg.itemHeight + cfg.spacing, cfg.buffer, cfg.columns)) &&
      |slots| == slotCount && totalCount >= 0 &&
      multiset(NodesOf(slots)) == pool &&
      Paid(State(), armed) &&
      Layout.Sorted(prefixY) &&
      boundsMin == 0.0 <= boundsMax &&
      (cfg.virtualList && !cfg.dynamicHeight ==>
        contentH == Grid.GridContentHeight(totalCount, cfg.columns, cfg.itemHeight, cfg.spacing) &&
        boundsMax == MaxR(0.0, contentH - cfg.viewportH)) &&
      (cfg.virtualList && cfg.dynamicHeight ==>
        Layout.Positive(itemHeights) && prefixY == Layout.Tops(itemHeights, cfg.spacing) &&
        slotCount == DynamicSlotCount(|itemHeights|, Layout.ContentHeight(itemHeights, cfg.spacing), cfg.viewportH, cfg.buffer) &&
        boundsMax == MaxR(0.0, Layout.ContentHeight(itemHeights, cfg.spacing) - cfg.viewportH))
    }

    /** `_setContentY`'s rounding. */
    function Align(y: real): real
    {
      if cfg.pixelAlign then Round(y) else y
    }

    /**
     * The first index `_updateVisible` computes for the current offset: the
     * start of the buffered visible range, or the first cell of the row at
     * the offset clamped to the list; 0 when the list is shorter than the pool.
     */
    function WindowStart(): int
      reads this`contentY, this`totalCount
      requires ConfigOk(cfg)
    {
      var start :=
        if cfg.dynamicHeight then Layout.VisibleRange(prefixY, contentY, cfg.viewportH, cfg.buffer).start
        else Grid.GridFirstIndex(contentY, cfg.itemHeight + cfg.spacing, cfg.columns, totalCount);
      if totalCount < slotCount then 0 else start
    }

    /** `scrollToIndex`'s target for an already clamped index. */
    function IndexTarget(i: int): real
      requires ConfigOk(cfg)
    {
      if cfg.dynamicHeight then (if 0 <= i < |prefixY| then prefixY[i] else 0.0)
      else Grid.GridScrollTarget(i, cfg.columns, cfg.itemHeight + cfg.spacing)
    }

    /**
     * Start-up in each mode, given the content node's offset and height, the
     * item count, the node heights in the variable-height list and the pool
     * size the start-up code computes.
     */
    constructor(cfg: Config, count: int, nodeHeights: seq<real>, slotCount: nat, contentY: real, contentNodeH: real)
      requires ConfigOk(cfg) && count >= 0
      requires !cfg.virtualList ==> slotCount == 0
      requires cfg.virtualList && !cfg.dynamicHeight ==>
        slotCount == Grid.FixedSlotCount(cfg.viewportH, cfg.itemHeight + cfg.spacing, cfg.buffer, cfg.columns)
      requires cfg.virtualList && cfg.dynamicHeight ==>
        |nodeHeights| == count && Layout.NonNegative(nodeHeights) &&
        slotCount == DynamicSlotCount(count, Layout.ContentHeight(Layout.ItemHeights(nodeHeights), cfg.spacing), cfg.viewportH, cfg.buffer)
      ensures Valid()
      ensures this.cfg == cfg && totalCount == count && this.contentY == contentY
      ensures velocity == 0.0 && !isTouching && samples == [] && first == 0
      ensures !cfg.virtualList ==>
        contentH == contentNodeH && boundsMax == MaxR(0.0, contentH - cfg.viewportH) && slots == []
      ensures cfg.virtualList && !cfg.dynamicHeight ==>
        contentH == Grid.GridContentHeight(count, cfg.columns, cfg.itemHeight, cfg.spacing) &&
        boundsMax == MaxR(0.0, contentH - cfg.viewportH)
      ensures cfg.virtualList && cfg.dynamicHeight ==>
        itemHeights == Layout.ItemHeights(nodeHeights) &&
        prefixY == Layout.Tops(itemHeights, cfg.spacing) &&
        contentH == Layout.ContentHeight(itemHeights, cfg.spacing) &&
        boundsMax == MaxR(0.0, contentH - cfg.viewportH)
      ensures cfg.virtualList ==> State() == SlotRing.LayoutSlots(Ring(InitialSlots(slotCount), {}, []), 0, count)
      ensures !cfg.virtualList ==> State() == Ring([], {}, [])
    {
      this.cfg := cfg;
      this.slotCount := slotCount;
      totalCount := count;
      this.contentY := contentY;
      velocity := 0.0;
      isTouching := false;
      samples := [];
      first := 0;
      armed := multiset{};
      var r0 := Ring(InitialSlots(slotCount), {}, []);
      var r := if cfg.virtualList then SlotRing.LayoutSlots(r0, 0, count) else r0;
      SlotRing.LayoutSlotsEstablishesWindow(r0, 0, count);
      slots, pending, trace := r.slots, r.pending, r.trace;
      pool := multiset(NodesOf(InitialSlots(slotCount)));
      boundsMin := 0.0;
      var hs, p, h, nodeH, hi := InitialGeometry(cfg, count, nodeHeights, contentNodeH);
      itemHeights, prefixY, contentH, this.contentNodeH, boundsMax := hs, p, h, nodeH, hi;
      new;
      assert Paid(State(), armed) by {
        forall j ensures Budget(State(), j) == armed[j] {
          assert Budget(r0, j) == 0;
        }
      }
    }

    /**
     * `_layoutSingleSlot`, bookkeeping only: show the node in slot `pos`, set
     * its data index, fire the render hook and, for a pending index, the
     * appear hook once.
     */
    method LayoutSingleSlot(idx: int, pos: nat)
      requires pos < |slots|
      modifies this`slots, this`pending, this`trace
      ensures State() == Bind(old(State()), pos, idx)
    {
      var node := slots[pos].node;
      slots := slots[pos := Slot(node, true, idx)];
      trace := trace + [Render(node, idx)];
      if idx in pending {
        trace := trace + [Appear(node, idx)];
        pending := pending - {idx};
      }
    }

    /** Places slots `lo .. hi - 1` in order at indices `base + s`: the shared loop of `_layoutSlots` and `_updateVisible`. */
    method PlaceSlots(base: int, lo: nat, hi: nat)
      requires lo <= hi <= |slots|
      modifies this`slots, this`pending, this`trace
      ensures State() == PlaceRange(old(State()), base, totalCount, lo, hi)
    {
      ghost var r0 := State();
      for s := lo to hi
        invariant State() == PlaceRange(r0, base, totalCount, lo, s)
      {
        var idx := base + s;
        if idx >= totalCount {
          slots := slots[s := slots[s].(active := false)];
        } else {
          LayoutSingleSlot(idx, s);
        }
      }
    }

    /** `_layoutSlots(firstIndex)`: slot `s` shows `firstIndex + s`, or is hidden past the end of the list. */
    method LayoutSlots(firstIndex: int)
      modifies this`slots, this`pending, this`trace
      ensures cfg.virtualList ==> State() == SlotRing.LayoutSlots(old(State()), firstIndex, totalCount)
      ensures !cfg.virtualList ==> State() == old(State())
    {
      if !cfg.virtualList {
        return;
      }
      PlaceSlots(firstIndex, 0, |slots|);
    }

    /** The first index `_updateVisible` computes for the current offset. */
    method ComputeWindowStart() returns (newFirst: int)
      requires Valid()
      ensures newFirst == WindowStart()
    {
      if cfg.dynamicHeight {
        var s, e := Layout.CalcVisibleRange(prefixY, contentY, cfg.viewportH, cfg.buffer);
        newFirst := s;
      } else {
        newFirst := Grid.GridFirstIndex(contentY, cfg.itemHeight + cfg.spacing, cfg.columns, totalCount);
      }
      if totalCount < slotCount {
        newFirst := 0;
      }
    }

    /**
     * The second half of `_updateVisible`: moves the window to `newFirst`,
     * relaying out everything when forced or when the jump is at least the
     * pool size, and otherwise rotating the pool and placing only the
     * entering slots.
     */
    method MoveWindow(newFirst: int, force: bool)
      requires |slots| == slotCount
      modifies this`first, this`slots, this`pending, this`trace
      ensures first == newFirst
      ensures State() == Shift(old(State()), old(first), newFirst, totalCount, force)
    {
      var diff := newFirst - first;
      if force || (diff != 0 && AbsI(diff) >= slotCount) {
        first := newFirst;
        PlaceSlots(first, 0, |slots|);
        return;
      }
      if diff == 0 {
        return;
      }
      first := newFirst;
      if diff > 0 {
        RotateAndPlaceTail(newFirst, diff);
      } else {
        RotateAndPlaceHead(newFirst, -diff);
      }
    }

    /** Forward move by `k < |slots|`: the first `k` slots go to the back and are placed. */
    method RotateAndPlaceTail(base: int, k: nat)
      requires 0 < k < |slots|
      modifies this`slots, this`pending, this`trace
      ensures State() == PlaceRange(old(State()).(slots := RotateLeft(old(slots), k)), base, totalCount,
                                    old(|slots|) - k, old(|slots|))
    {
      slots := slots[k..] + slots[..k];
      PlaceSlots(base, |slots| - k, |slots|);
    }

    /** Backward move by `k < |slots|`: the last `k` slots go to the front and are placed. */
    method RotateAndPlaceHead(base: int, k: nat)
      requires 0 < k < |slots|
      modifies this`slots, this`pending, this`trace
      ensures State() == PlaceRange(old(State()).(slots := RotateRight(old(slots), k)), base, totalCount, 0, k)
    {
      slots := slots[|slots| - k..] + slots[..|slots| - k];
      PlaceSlots(base, 0, k);
    }

    /**
     * `_updateVisible(force)`: in the virtual list, moves the window to the
     * first index computed for the current offset; the component invariant
     * is kept.
     */
    method UpdateVisible(force: bool)
      requires Valid()
      modifies this`first, this`slots, this`pending, this`trace
      ensures Valid()
      ensures cfg.virtualList ==>
        first == WindowStart() &&
        State() == Shift(old(State()), old(first), WindowStart(), totalCount, force)
      ensures !cfg.virtualList ==> first == old(first) && State() == old(State())
    {
      if !cfg.virtualList {
        return;
      }
      var newFirst := ComputeWindowStart();
      ShiftEstablishesWindow(State(), first, newFirst, totalCount, force);
      ShiftPermutesNodes(State(), first, newFirst, totalCount, force);
      ShiftConservesBudget(State(), first, newFirst, totalCount, force);
      MoveWindow(newFirst, force);
    }

    /**
     * `_recomputeContentHeight`: the content node's height in simple mode,
     * rows times stride less one spacing in the grid, and nothing in the
     * variable-height list (its table is built once at start-up).
     */
    method RecomputeContentHeight()
      requires ConfigOk(cfg)
      modifies this`contentH, this`contentNodeH, this`boundsMin, this`boundsMax
      ensures !cfg.virtualList ==>
        contentH == old(contentNodeH) && contentNodeH == old(contentNodeH) &&
        boundsMin == 0.0 && boundsMax == MaxR(0.0, contentH - cfg.viewportH)
      ensures cfg.virtualList && cfg.dynamicHeight ==>
        contentH == old(contentH) && contentNodeH == old(contentNodeH) &&
        boundsMin == old(boundsMin) && boundsMax == old(boundsMax)
      ensures cfg.virtualList && !cfg.dynamicHeight ==>
        contentH == Grid.GridContentHeight(totalCount, cfg.columns, cfg.itemHeight, cfg.spacing) &&
        contentNodeH == MaxR(contentH, cfg.viewportH) &&
        boundsMin == 0.0 && boundsMax == MaxR(0.0, contentH - cfg.viewportH)
    {
      if !cfg.virtualList {
        contentH := contentNodeH;
        boundsMin := 0.0;
        boundsMax := MaxR(0.0, contentH - cfg.viewportH);
        return;
      }
      if cfg.dynamicHeight {
        return;
      }
      contentH := Grid.GridContentHeight(totalCount, cfg.columns, cfg.itemHeight, cfg.spacing);
      contentNodeH := MaxR(contentH, cfg.viewportH);
      boundsMin := 0.0;
      boundsMax := MaxR(0.0, contentH - cfg.viewportH);
    }

    /**
     * `setTotalCount`: the count becomes `max(0, count | 0)`, every appended
     * index becomes pending, the bounds are recomputed, the first index is
     * clamped to the list and laid out, and the window is then forced to the
     * current offset.
     */
    method SetTotalCount(count: int)
      requires Valid()
      modifies this`totalCount, this`pending, this`armed, this`contentH, this`contentNodeH,
               this`boundsMin, this`boundsMax, this`first, this`slots, this`trace
      ensures Valid()
      ensures !cfg.virtualList ==>
        totalCount == old(totalCount) && State() == old(State()) && first == old(first)
      ensures cfg.virtualList ==>
        totalCount == MaxI(0, ToInt32(count)) &&
        first == WindowStart() &&
        var marked := old(State()).(pending := MarkAppended(old(pending), old(totalCount), totalCount));
        var clamped := ClampI(old(first), 0, MaxI(0, totalCount - 1));
        State() == SlotRing.LayoutSlots(SlotRing.LayoutSlots(marked, clamped, totalCount), WindowStart(), totalCount)
      ensures cfg.virtualList && !cfg.dynamicHeight ==>
        contentH == Grid.GridContentHeight(totalCount, cfg.columns, cfg.itemHeight, cfg.spacing) &&
        contentNodeH == MaxR(contentH, cfg.viewportH) &&
        boundsMin == 0.0 && boundsMax == MaxR(0.0, contentH - cfg.viewportH)
      ensures !cfg.virtualList || cfg.dynamicHeight ==>
        contentH == old(contentH) && contentNodeH == old(contentNodeH) &&
        boundsMin == old(boundsMin) && boundsMax == old(boundsMax)
      ensures cfg.virtualList ==> forall j :: old(totalCount) <= j < totalCount ==> armed[j] >= 1
    {
      if !cfg.virtualList {
        return;
      }
      ApplyCount(count);
      RelayoutClamped();
      UpdateVisible(true);
    }

    /**
     * The first half of `setTotalCount` in the virtual list: the new count,
     * the appended indices marked, and the bounds recomputed.
     */
    method ApplyCount(count: int)
      requires Valid() && cfg.virtualList
      modifies this`totalCount, this`pending, this`armed, this`contentH, this`contentNodeH,
               this`boundsMin, this`boundsMax
      ensures Sound()
      ensures totalCount == MaxI(0, ToInt32(count))
      ensures pending == MarkAppended(old(pending), old(totalCount), totalCount)
      ensures forall j :: old(totalCount) <= j < totalCount ==> armed[j] >= 1
      ensures !cfg.dynamicHeight ==>
        contentH == Grid.GridContentHeight(totalCount, cfg.columns, cfg.itemHeight, cfg.spacing) &&
        contentNodeH == MaxR(contentH, cfg.viewportH) &&
        boundsMin == 0.0 && boundsMax == MaxR(0.0, contentH - cfg.viewportH)
      ensures cfg.dynamicHeight ==>
        contentH == old(contentH) && contentNodeH == old(contentNodeH) &&
        boundsMin == old(boundsMin) && boundsMax == old(boundsMax)
    {
      var oldCount := totalCount;
      totalCount := MaxI(0, ToInt32(count));
      MarkAppendedIndices(oldCount);
      RecomputeContentHeight();
    }

    /**
     * The middle of `setTotalCount`: the first index is clamped to the list
     * and the whole pool is laid out from it, which restores the window
     * invariant.
     */
    method RelayoutClamped()
      requires Sound()
      modifies this`first, this`slots, this`pending, this`trace
      ensures Valid()
      ensures first == ClampI(old(first), 0, MaxI(0, totalCount - 1))
      ensures cfg.virtualList ==> State() == SlotRing.LayoutSlots(old(State()), first, totalCount)
      ensures !cfg.virtualList ==> State() == old(State())
    {
      ghost var r := State();
      first := ClampI(first, 0, MaxI(0, totalCount - 1));
      LayoutSlots(first);
      if cfg.virtualList {
        LayoutSlotsEstablishesWindow(r, first, totalCount);
      }
    }

    /**
     * `refreshList` with the new item count (an array argument contributes
     * its length): `setTotalCount` in the virtual list, ignored in the simple
     * scroll mode.
     */
    method RefreshList(count: int)
      requires Valid()
      modifies this`totalCount, this`pending, this`armed, this`contentH, this`contentNodeH,
               this`boundsMin, this`boundsMax, this`first, this`slots, this`trace
      ensures Valid()
      ensures !cfg.virtualList ==> totalCount == old(totalCount) && State() == old(State()) && first == old(first)
      ensures cfg.virtualList ==>
        totalCount == MaxI(0, ToInt32(count)) &&
        first == WindowStart() &&
        var marked := old(State()).(pending := MarkAppended(old(pending), old(totalCount), totalCount));
        var clamped := ClampI(old(first), 0, MaxI(0, totalCount - 1));
        State() == SlotRing.LayoutSlots(SlotRing.LayoutSlots(marked, clamped, totalCount), WindowStart(), totalCount)
      ensures cfg.virtualList && !cfg.dynamicHeight ==>
        contentH == Grid.GridContentHeight(totalCount, cfg.columns, cfg.itemHeight, cfg.spacing) &&
        contentNodeH == MaxR(contentH, cfg.viewportH) &&
        boundsMin == 0.0 && boundsMax == MaxR(0.0, contentH - cfg.viewportH)
      ensures !cfg.virtualList || cfg.dynamicHeight ==>
        contentH == old(contentH) && contentNodeH == old(contentNodeH) &&
        boundsMin == old(boundsMin) && boundsMax == old(boundsMax)
      ensures cfg.virtualList ==> forall j :: old(totalCount) <= j < totalCount ==> armed[j] >= 1
    {
      if !cfg.virtualList {
        return;
      }
      SetTotalCount(count);
    }

    /**
     * The marking loop of `setTotalCount`: every index from `oldCount` up to
     * the new count becomes pending; an index that was not pending yet is
     * armed once more.
     */
    method MarkAppendedIndices(oldCount: int)
      requires Paid(State(), armed)
      modifies this`pending, this`armed
      ensures pending == MarkAppended(old(pending), oldCount, totalCount)
      ensures Paid(State(), armed)
      ensures forall j :: oldCount <= j < totalCount ==> armed[j] >= 1
    {
      ghost var p0 := pending;
      if totalCount > oldCount {
        for i := oldCount to totalCount
          invariant pending == p0 + Entering(0, totalCount, oldCount, i)
          invariant Paid(State(), armed)
        {
          ghost var r := State();
          ghost var a := armed;
          if i !in pending {
            armed := armed + multiset{i};
          }
          pending := pending + {i};
          forall j
            ensures Budget(State(), j) == armed[j]
          {
            assert Budget(r, j) == a[j];
          }
        }
      }
      assert pending == MarkAppended(p0, oldCount, totalCount);
      forall j | oldCount <= j < totalCount
        ensures armed[j] >= 1
      {
        assert Budget(State(), j) >= 1;
      }
    }

    /** `_setContentY`, for a finite offset: the offset becomes `y`, rounded when pixel alignment is on. */
    method SetContentY(y: real)
      modifies this`contentY
      ensures contentY == Align(y)
    {
      var v := y;
      if cfg.pixelAlign {
        v := Round(v);
      }
      if v == contentY {
        return;
      }
      contentY := v;
    }

    /**
     * `_scrollToPosition`: stops the motion, clears the samples, jumps to the
     * target clamped to the bounds (rounded when pixel alignment is on) and
     * forces the window to it.
     */
    method ScrollToPosition(targetY: real)
      requires Valid()
      modifies this`velocity, this`isTouching, this`samples, this`contentY,
               this`first, this`slots, this`pending, this`trace
      ensures Valid()
      ensures velocity == 0.0 && !isTouching && samples == []
      ensures contentY == Align(ClampF(targetY, boundsMin, boundsMax))
      ensures !cfg.pixelAlign ==> boundsMin <= contentY <= boundsMax
      ensures cfg.pixelAlign ==> AbsR(contentY - ClampF(targetY, boundsMin, boundsMax)) <= 0.5
      ensures cfg.virtualList ==>
        first == WindowStart() && State() == SlotRing.LayoutSlots(old(State()), WindowStart(), totalCount)
      ensures !cfg.virtualList ==> State() == old(State())
    {
      var t := ClampF(targetY, boundsMin, boundsMax);
      assert boundsMin <= t <= boundsMax;
      StopMotion();
      JumpTo(t);
    }

    /** Stops any motion in progress: no velocity, no touch, no velocity samples. */
    method StopMotion()
      modifies this`velocity, this`isTouching, this`samples
      ensures velocity == 0.0 && !isTouching && samples == []
    {
      velocity := 0.0;
      isTouching := false;
      samples := [];
    }

    /**
     * The jump of `_scrollToPosition` and `_flashToPosition`: the offset
     * becomes the target (rounded when pixel alignment is on, which the
     * second rounding in `_setContentY` leaves as it is) and the window is
     * forced to it.
     */
    method JumpTo(t: real)
      requires Valid()
      modifies this`contentY, this`first, this`slots, this`pending, this`trace
      ensures Valid()
      ensures contentY == Align(t)
      ensures cfg.virtualList ==>
        first == WindowStart() && State() == SlotRing.LayoutSlots(old(State()), WindowStart(), totalCount)
      ensures !cfg.virtualList ==> State() == old(State())
    {
      SetContentY(Align(t));
      RoundIdempotent(t);
      UpdateVisible(true);
    }

    /** `scrollToTop` / `flashToTop`: jump to the lower bound. */
    method ScrollToTop()
      requires Valid()
      modifies this`velocity, this`isTouching, this`samples, this`contentY,
               this`first, this`slots, this`pending, this`trace
      ensures Valid()
      ensures contentY == Align(boundsMin) && velocity == 0.0 && !isTouching && samples == []
      ensures cfg.virtualList ==>
        first == WindowStart() && State() == SlotRing.LayoutSlots(old(State()), WindowStart(), totalCount)
      ensures !cfg.virtualList ==> State() == old(State())
    {
      ScrollToPosition(boundsMin);
    }

    /** `scrollToBottom` / `flashToBottom`: jump to the upper bound. */
    method ScrollToBottom()
      requires Valid()
      modifies this`velocity, this`isTouching, this`samples, this`contentY,
               this`first, this`slots, this`pending, this`trace
      ensures Valid()
      ensures contentY == Align(boundsMax) && velocity == 0.0 && !isTouching && samples == []
      ensures cfg.virtualList ==>
        first == WindowStart() && State() == SlotRing.LayoutSlots(old(State()), WindowStart(), totalCount)
      ensures !cfg.virtualList ==> State() == old(State())
    {
      ScrollToPosition(boundsMax);
    }

    /**
     * `scrollToIndex`: clamps `index | 0` to the list and jumps to the top of
     * its row (grid) or of the item (variable heights), clamped to the
     * bounds. Without pixel alignment the window then contains the index,
     * also when the jump is clamped at the upper bound; in the
     * variable-height list this needs an index that has a top and a pool at
     * least as large as `MinHeightSlotCount`, which the average-sized pool
     * need not be (`AveragePoolMissesItem`).
     */
    method ScrollToIndex(index: int)
      requires Valid()
      modifies this`velocity, this`isTouching, this`samples, this`contentY,
               this`first, this`slots, this`pending, this`trace
      ensures Valid()
      ensures velocity == 0.0 && !isTouching && samples == []
      ensures contentY == Align(ClampF(IndexTarget(ClampI(ToInt32(index), 0, MaxI(0, totalCount - 1))), boundsMin, boundsMax))
      ensures cfg.virtualList ==>
        first == WindowStart() && State() == SlotRing.LayoutSlots(old(State()), WindowStart(), totalCount)
      ensures !cfg.virtualList ==> State() == old(State())
      ensures var i := ToInt32(index);
        cfg.virtualList && !cfg.pixelAlign && 0 <= i < totalCount &&
        (cfg.dynamicHeight ==> i < |prefixY| && slotCount >= MinHeightSlotCount(itemHeights, cfg.viewportH, cfg.buffer)) ==>
        first <= i < first + slotCount
    {
      var i := ClampI(ToInt32(index), 0, MaxI(0, totalCount - 1));
      var target := IndexTarget(i);
      ScrollToPosition(target);
      if cfg.virtualList && !cfg.pixelAlign && 0 <= i < totalCount {
        if !cfg.dynamicHeight {
          GridJumpContainsIndex(cfg, totalCount, slotCount, i, contentY);
        } else if i < |prefixY| {
          DynamicJumpContainsIndex(itemHeights, cfg.spacing, cfg.viewportH, cfg.buffer, i, contentY);
        }
      }
    }

    /** `flashToIndex`: `scrollToIndex`, except that the simple scroll mode ignores it. */
    method FlashToIndex(index: int)
      requires Valid()
      modifies this`velocity, this`isTouching, this`samples, this`contentY,
               this`first, this`slots, this`pending, this`trace
      ensures Valid()
      ensures !cfg.virtualList ==>
        contentY == old(contentY) && velocity == old(velocity) && isTouching == old(isTouching) &&
        samples == old(samples) && State() == old(State())
      ensures cfg.virtualList ==>
        velocity == 0.0 && !isTouching && samples == [] &&
        contentY == Align(ClampF(IndexTarget(ClampI(ToInt32(index), 0, MaxI(0, totalCount - 1))), boundsMin, boundsMax)) &&
        first == WindowStart() && State() == SlotRing.LayoutSlots(old(State()), WindowStart(), totalCount)
      ensures var i := ToInt32(index);
        cfg.virtualList && !cfg.pixelAlign && 0 <= i < totalCount &&
        (cfg.dynamicHeight ==> i < |prefixY| && slotCount >= MinHeightSlotCount(itemHeights, cfg.viewportH, cfg.buffer)) ==>
        first <= i < first + slotCount
    {
      if !cfg.virtualList {
        return;
      }
      ScrollToIndex(index);
    }

    /** `refreshIndex`, restricted to bound indices: re-renders the one slot showing `index`, if any. */
    method RefreshIndex(index: int)
      requires Valid()
      modifies this`trace
      ensures Valid()
      ensures cfg.virtualList ==> trace == old(trace) + SlotRing.Refresh(slots, first, totalCount, index)
      ensures !cfg.virtualList ==> trace == old(trace)
    {
      if !cfg.virtualList {
        return;
      }
      var last := first + slotCount - 1;
      if index < first || index > last || index >= totalCount {
        return;
      }
      ghost var r0 := State();
      trace := trace + [Render(slots[index - first].node, index)];
      forall j
        ensures Budget(State(), j) == armed[j]
      {
        assert Budget(r0, j) == armed[j];
        RefreshKeepsAppearCount(r0.trace, slots, first, totalCount, index, j);
      }
    }

    /** `_onDown`: a drag starts; motion stops and the samples are cleared. */
    method OnDown()
      modifies this`isTouching, this`velocity, this`samples
      ensures isTouching && velocity == 0.0 && samples == []
    {
      isTouching := true;
      velocity := 0.0;
      samples := [];
    }

    /**
     * `_onMove` with the drag delta `dy` at time `now` (seconds): moves the
     * content, records the sample, drops the stale samples from the front and
     * updates the window. Ignored when no drag is in progress.
     */
    method OnMove(dy: real, now: real)
      requires Valid()
      modifies this`contentY, this`samples, this`first, this`slots, this`pending, this`trace
      ensures Valid()
      ensures !old(isTouching) ==> contentY == old(contentY) && samples == old(samples) && State() == old(State())
      ensures old(isTouching) ==>
        contentY == Align(old(contentY) + dy) &&
        samples == Sampler.DropStale(old(samples) + [Sampler.Sample(now, dy)], now - cfg.velocityWindow) &&
        (cfg.velocityWindow >= 0.0 ==> samples != [] && samples[|samples| - 1] == Sampler.Sample(now, dy))
      ensures old(isTouching) && cfg.virtualList ==>
        first == WindowStart() && State() == Shift(old(State()), old(first), WindowStart(), totalCount, false)
      ensures !cfg.virtualList ==> State() == old(State())
    {
      if !isTouching {
        return;
      }
      DragContent(dy);
      RecordSample(dy, now);
      if cfg.virtualList {
        UpdateVisible(false);
      }
    }

    /** The first step of `_onMove`: the offset moves by the drag delta, rounded when pixel alignment is on. */
    method DragContent(dy: real)
      modifies this`contentY
      ensures contentY == Align(old(contentY) + dy)
    {
      var y := contentY + dy;
      if cfg.pixelAlign {
        y := Round(y);
      }
      RoundIdempotent(contentY + dy);
      SetContentY(y);
    }

    /**
     * The sampling step of `_onMove`: appends the sample, then drops stale
     * samples from the front; the new sample survives a non-negative window.
     */
    method RecordSample(dy: real, now: real)
      modifies this`samples
      ensures samples == Sampler.DropStale(old(samples) + [Sampler.Sample(now, dy)], now - cfg.velocityWindow)
      ensures cfg.velocityWindow >= 0.0 ==> samples != [] && samples[|samples| - 1] == Sampler.Sample(now, dy)
    {
      var t0 := now - cfg.velocityWindow;
      var appended := samples + [Sampler.Sample(now, dy)];
      var trimmed := Sampler.TrimStale(appended, t0);
      if cfg.velocityWindow >= 0.0 {
        Sampler.DropStaleKeepsNewest(samples, Sampler.Sample(now, dy), t0);
      }
      samples := trimmed;
    }

    /**
     * `_onUp` (also touch cancel): the drag ends, the release velocity is
     * estimated from the samples and clamped to `±maxVelocity`, and the
     * samples are cleared. Ignored when no drag is in progress.
     */
    method OnUp()
      modifies this`isTouching, this`velocity, this`samples
      ensures !old(isTouching) ==> velocity == old(velocity) && samples == old(samples) && !isTouching
      ensures old(isTouching) ==>
        !isTouching && samples == [] &&
        velocity == Sampler.ReleaseVelocity(old(samples), cfg.maxVelocity) &&
        AbsR(velocity) <= AbsR(cfg.maxVelocity)
    {
      if !isTouching {
        return;
      }
      isTouching := false;
      velocity := Sampler.EstimateReleaseVelocity(samples, cfg.maxVelocity);
      samples := [];
    }

    /** The physics parameters of the current state. */
    function PhysicsParams(): Physics.Params
      reads this`boundsMin, this`boundsMax
    {
      Physics.Params(boundsMin, boundsMax, cfg.springK, cfg.springC, cfg.velocitySnap, cfg.iosCurve)
    }

    /** The velocity part of `update`: spring-damper out of bounds, inertia decay inside, then the snap to zero. */
    method StepVelocity(dt: real, f: Physics.DecayFactors)
      modifies this`velocity
      ensures velocity == Physics.NextVelocity(contentY, old(velocity), dt, PhysicsParams(), f)
    {
      velocity := Physics.NextVelocity(contentY, velocity, dt, PhysicsParams(), f);
    }

    /** The motion part of `update` for a non-zero velocity: the offset advances by `velocity * dt`. */
    method Coast(dt: real)
      requires velocity != 0.0
      modifies this`contentY
      ensures contentY == Physics.NextOffset(old(contentY), velocity, dt, cfg.pixelAlign)
    {
      ghost var y0 := contentY;
      var y := contentY + velocity * dt;
      RoundIdempotent(y);
      assert Align(Align(y)) == Align(y);
      assert Physics.NextOffset(y0, velocity, dt, cfg.pixelAlign) == Align(y);
      SetContentY(Align(y));
    }

    /**
     * `update(dt)` with this frame's decay factors: nothing while a drag is
     * in progress; otherwise one physics step, and the offset and window
     * move only when the new velocity is not zero.
     */
    method Update(dt: real, f: Physics.DecayFactors)
      requires Valid()
      modifies this`velocity, this`contentY, this`first, this`slots, this`pending, this`trace
      ensures Valid()
      ensures old(isTouching) ==> velocity == old(velocity) && contentY == old(contentY) && State() == old(State())
      ensures !old(isTouching) ==>
        velocity == Physics.NextVelocity(old(contentY), old(velocity), dt, PhysicsParams(), f) &&
        contentY == Physics.NextOffset(old(contentY), velocity, dt, cfg.pixelAlign)
      ensures !old(isTouching) && velocity == 0.0 ==> State() == old(State()) && first == old(first)
      ensures !old(isTouching) && velocity != 0.0 && cfg.virtualList ==>
        first == WindowStart() && State() == Shift(old(State()), old(first), WindowStart(), totalCount, false)
      ensures !cfg.virtualList ==> State() == old(State())
    {
      if isTouching {
        return;
      }
      StepVelocity(dt, f);
      if velocity != 0.0 {
        Coast(dt);
        if cfg.virtualList {
          UpdateVisible(false);
        }
      }
    }
  }
}

=== FILE: slotring.dfy ===
/**
 * The slot pool ("ring buffer") of the virtual list, on values.
 *
 * A fixed number of slots hold reusable nodes. The window starting at
 * `first` binds slot `s` to data index `first + s`, or hides the slot's node
 * when that index is past the end of the list. Moving the window rotates the
 * slots and rebinds only the ones that enter it. Binding an index fires the
 * render hook, and fires the appear hook once if the index is pending.
 */
module SlotRing {
  import opened Numeric

  type NodeId = nat

  /**
   * One slot: the node it holds, whether that node is shown (`node.active`),
   * and the data index last set on the node's item component (`setDataIndex`).
   */
  datatype Slot = Slot(node: NodeId, active: bool, dataIndex: int)

  /** A call the list makes to an injected callback. */
  datatype Hook = Render(node: NodeId, index: int) | Appear(node: NodeId, index: int)

  /** The pool's state: the slots in ring order, the indices pending an appear hook, and the hooks fired so far. */
  datatype Ring = Ring(slots: seq<Slot>, pending: set<int>, trace: seq<Hook>)

  function NodesOf(slots: seq<Slot>): (ns: seq<NodeId>)
    ensures |ns| == |slots|
  {
    seq(|slots|, i requires 0 <= i < |slots| => slots[i].node)
  }

  /** How many times the appear hook has fired for index `j` in `t`. */
  function AppearCount(t: seq<Hook>, j: int): nat
  {
    if t == [] then 0
    else AppearCount(t[..|t| - 1], j) + (if t[|t| - 1].Appear? && t[|t| - 1].index == j then 1 else 0)
  }

  lemma AppearCountSnoc(t: seq<Hook>, h: Hook, j: int)
    ensures AppearCount(t + [h], j) == AppearCount(t, j) + (if h.Appear? && h.index == j then 1 else 0)
  {
    assert (t + [h])[..|t|] == t;
  }

  /**
   * Appear hooks fired for `j` plus the one still owed while `j` is pending.
   * Binding never changes it; marking an index that is not pending raises it by one.
   */
  function Budget(r: Ring, j: int): nat
  {
    AppearCount(r.trace, j) + (if j in r.pending then 1 else 0)
  }

  /**
   * `_layoutSingleSlot`, bookkeeping only: show the slot's node, set its data
   * index, fire the render hook and, if the index is pending, the appear hook,
   * then drop the index from the pending set.
   */
  function Bind(r: Ring, pos: nat, idx: int): (r': Ring)
    requires pos < |r.slots|
    ensures |r'.slots| == |r.slots|
  {
    var n := r.slots[pos].node;
    var t := r.trace + [Render(n, idx)];
    Ring(r.slots[pos := Slot(n, true, idx)],
         r.pending - {idx},
         if idx in r.pending then t + [Appear(n, idx)] else t)
  }

  /**
   * Binding fires the appear hook for `idx` exactly when `idx` was pending,
   * leaves `idx` no longer pending, and leaves every index's budget unchanged.
   */
  lemma BindFiresAppearOnce(r: Ring, pos: nat, idx: int)
    requires pos < |r.slots|
    ensures var r' := Bind(r, pos, idx);
      idx !in r'.pending &&
      AppearCount(r'.trace, idx) == AppearCount(r.trace, idx) + (if idx in r.pending then 1 else 0) &&
      (forall j :: Budget(r', j) == Budget(r, j)) &&
      r.trace < r'.trace
  {
    var n := r.slots[pos].node;
    var t := r.trace + [Render(n, idx)];
    forall j
      ensures AppearCount(Bind(r, pos, idx).trace, j)
        == AppearCount(r.trace, j) + (if j == idx && idx in r.pending then 1 else 0)
    {
      AppearCountSnoc(r.trace, Render(n, idx), j);
      if idx in r.pending {
        AppearCountSnoc(t, Appear(n, idx), j);
      }
    }
  }

  /** Hiding a slot's node (`node.active = false`); its data index stays as it was. */
  function Deactivate(r: Ring, pos: nat): (r': Ring)
    requires pos < |r.slots|
    ensures |r'.slots| == |r.slots|
  {
    r.(slots := r.slots[pos := r.slots[pos].(active := false)])
  }

  /** Slot `pos` shows index `idx`, or is hidden when `idx >= total`. */
  function Place(r: Ring, pos: nat, idx: int, total: int): (r': Ring)
    requires pos < |r.slots|
    ensures |r'.slots| == |r.slots|
  {
    if idx >= total then Deactivate(r, pos) else Bind(r, pos, idx)
  }

  /** Placing one slot keeps every budget and only appends to the trace. */
  lemma PlaceKeepsBudget(r: Ring, pos: nat, idx: int, total: int)
    requires pos < |r.slots|
    ensures forall j :: Budget(Place(r, pos, idx, total), j) == Budget(r, j)
    ensures r.trace <= Place(r, pos, idx, total).trace
  {
    if idx < total {
      BindFiresAppearOnce(r, pos, idx);
    }
  }

  /** Places slots `lo .. hi - 1`, in increasing order, at indices `first + s`. */
  function PlaceRange(r: Ring, first: int, total: int, lo: nat, hi: nat): (r': Ring)
    requires lo <= hi <= |r.slots|
    ensures |r'.slots| == |r.slots|
    decreases hi - lo
  {
    if hi == lo then r
    else Place(PlaceRange(r, first, total, lo, hi - 1), hi - 1, first + hi - 1, total)
  }

  /** The indices of `[first + lo, first + hi)` that exist in a list of `total` items. */
  function Entering(first: int, total: int, lo: int, hi: int): set<int>
  {
    set i | first + lo <= i < first + hi && ItemExists(i, total)
  }

  /** Index `i` is below the item count `total`. */
  predicate ItemExists(i: int, total: int)
  {
    i < total
  }

  /** Slot `s` holds `node` and is bound to `first + s` if that index exists, hidden otherwise. */
  predicate PlacedAt(sl: Slot, node: NodeId, first: int, s: int, total: int)
  {
    sl.node == node && sl.active == (first + s < total) && (sl.active ==> sl.dataIndex == first + s)
  }

  /**
   * Placing a range of slots places exactly those slots and keeps every node
   * where it was.
   */
  lemma {:induction false} PlaceRangeSlots(r: Ring, first: int, total: int, lo: nat, hi: nat)
    requires lo <= hi <= |r.slots|
    ensures var r' := PlaceRange(r, first, total, lo, hi);
      (forall s :: lo <= s < hi ==> PlacedAt(r'.slots[s], r.slots[s].node, first, s, total)) &&
      (forall s :: 0 <= s < |r.slots| && !(lo <= s < hi) ==> r'.slots[s] == r.slots[s])
    ensures NodesOf(PlaceRange(r, first, total, lo, hi).slots) == NodesOf(r.slots)
  {
    if hi > lo {
      PlaceRangeSlots(r, first, total, lo, hi - 1);
      var m := PlaceRange(r, first, total, lo, hi - 1);
      var r' := PlaceRange(r, first, total, lo, hi);
      assert r' == Place(m, hi - 1, first + hi - 1, total);
      assert NodesOf(r'.slots) == NodesOf(m.slots);
    }
  }

  /**
   * Placing a range of slots consumes exactly the pending indices it binds,
   * keeps every budget, and only appends to the hook trace.
   */
  lemma PlaceRangeBookkeeping(r: Ring, first: int, total: int, lo: nat, hi: nat)
    requires lo <= hi <= |r.slots|
    ensures PlaceRange(r, first, total, lo, hi).pending == r.pending - Entering(first, total, lo, hi)
    ensures forall j :: Budget(PlaceRange(r, first, total, lo, hi), j) == Budget(r, j)
    ensures r.trace <= PlaceRange(r, first, total, lo, hi).trace
  {
    PlaceRangePending(r, first, total, lo, hi);
    forall j
      ensures Budget(PlaceRange(r, first, total, lo, hi), j) == Budget(r, j)
    {
      PlaceRangeBudget(r, first, total, lo, hi, j);
    }
    PlaceRangeBudget(r, first, total, lo, hi, 0);
  }

  lemma {:induction false} PlaceRangePending(r: Ring, first: int, total: int, lo: nat, hi: nat)
    requires lo <= hi <= |r.slots|
    ensures PlaceRange(r, first, total, lo, hi).pending == r.pending - Entering(first, total, lo, hi)
    decreases hi - lo
  {
    if hi > lo {
      PlaceRangePending(r, first, total, lo, hi - 1);
      EnteringStep(first, total, lo, hi);
    } else {
      assert Entering(first, total, lo, hi) == {};
    }
  }

  lemma {:induction false} PlaceRangeBudget(r: Ring, first: int, total: int, lo: nat, hi: nat, j: int)
    requires lo <= hi <= |r.slots|
    ensures Budget(PlaceRange(r, first, total, lo, hi), j) == Budget(r, j)
    ensures r.trace <= PlaceRange(r, first, total, lo, hi).trace
    decreases hi - lo
  {
    if hi > lo {
      PlaceRangeBudget(r, first, total, lo, hi - 1, j);
      PlaceRangeStepBudget(r, first, total, lo, hi, j);
    }
  }

  /** Placing the last slot of a range keeps the budget of `j` and only appends to the trace. */
  lemma PlaceRangeStepBudget(r: Ring, first: int, total: int, lo: nat, hi: nat, j: int)
    requires lo < hi <= |r.slots|
    ensures Budget(PlaceRange(r, first, total, lo, hi), j) == Budget(PlaceRange(r, first, total, lo, hi - 1), j)
    ensures PlaceRange(r, first, total, lo, hi - 1).trace <= PlaceRange(r, first, total, lo, hi).trace
  {
    PlaceKeepsBudget(PlaceRange(r, first, total, lo, hi - 1), hi - 1, first + hi - 1, total);
  }

  /** Placing one slot appends at most a render and an appear hook, both for the placed index, and only when it exists. */
  lemma PlaceTraceStep(r: Ring, pos: nat, idx: int, total: int)
    requires pos < |r.slots|
    ensures var t' := Place(r, pos, idx, total).trace;
      r.trace <= t' && |t'| <= |r.trace| + 2 &&
      forall k :: |r.trace| <= k < |t'| ==> t'[k].index == idx && ItemExists(idx, total)
  {
  }

  /**
   * Placing slots `lo .. hi - 1` only appends to the trace, at most two hooks
   * per slot, and every appended hook is for an index of the range that exists.
   */
  lemma {:induction false} PlaceRangeTrace(r: Ring, first: int, total: int, lo: nat, hi: nat)
    requires lo <= hi <= |r.slots|
    ensures var t' := PlaceRange(r, first, total, lo, hi).trace;
      r.trace <= t' && |t'| <= |r.trace| + 2 * (hi - lo) &&
      forall k :: |r.trace| <= k < |t'| ==> t'[k].index in Entering(first, total, lo, hi)
    decreases hi - lo
  {
    if hi > lo {
      PlaceRangeTrace(r, first, total, lo, hi - 1);
      var m := PlaceRange(r, first, total, lo, hi - 1);
      PlaceTraceStep(m, hi - 1, first + hi - 1, total);
      var t' := PlaceRange(r, first, total, lo, hi).trace;
      assert t' == Place(m, hi - 1, first + hi - 1, total).trace;
      forall k | |r.trace| <= k < |t'|
        ensures t'[k].index in Entering(first, total, lo, hi)
      {
        if k < |m.trace| {
          assert t'[k] == m.trace[k];
          assert t'[k].index in Entering(first, total, lo, hi - 1);
        } else {
          assert t'[k].index == first + hi - 1;
        }
      }
    }
  }

  /** Widening a range by one slot adds that slot's index when it exists. */
  lemma EnteringStep(first: int, total: int, lo: int, hi: int)
    requires lo < hi
    ensures Entering(first, total, lo, hi) ==
      Entering(first, total, lo, hi - 1) + (if first + hi - 1 < total then {first + hi - 1} else {})
  {
  }

  /** Both halves of the effect of placing a range. */
  lemma PlaceRangeEffect(r: Ring, first: int, total: int, lo: nat, hi: nat)
    requires lo <= hi <= |r.slots|
    ensures var r' := PlaceRange(r, first, total, lo, hi);
      (forall s :: lo <= s < hi ==> PlacedAt(r'.slots[s], r.slots[s].node, first, s, total)) &&
      (forall s :: 0 <= s < |r.slots| && !(lo <= s < hi) ==> r'.slots[s] == r.slots[s]) &&
      NodesOf(r'.slots) == NodesOf(r.slots) &&
      r'.pending == r.pending - Entering(first, total, lo, hi) &&
      (forall j :: Budget(r', j) == Budget(r, j)) &&
      r.trace <= r'.trace
  {
    PlaceRangeSlots(r, first, total, lo, hi);
    PlaceRangeBookkeeping(r, first, total, lo, hi);
  }

  /** `_layoutSlots(first)`: every slot is placed at `first + s`. */
  function LayoutSlots(r: Ring, first: int, total: int): (r': Ring)
    ensures |r'.slots| == |r.slots|
  {
    PlaceRange(r, first, total, 0, |r.slots|)
  }

  /** The window invariant: slot `s` is bound to `first + s` when that index exists, and hidden otherwise. */
  predicate WindowInvariant(slots: seq<Slot>, first: int, total: int)
  {
    forall s :: 0 <= s < |slots| ==>
      slots[s].active == (first + s < total) && (slots[s].active ==> slots[s].dataIndex == first + s)
  }

  /** A full relayout establishes the window invariant for its start, whatever the slots held before. */
  lemma LayoutSlotsEstablishesWindow(r: Ring, first: int, total: int)
    ensures WindowInvariant(LayoutSlots(r, first, total).slots, first, total)
    ensures NodesOf(LayoutSlots(r, first, total).slots) == NodesOf(r.slots)
    ensures forall j :: Budget(LayoutSlots(r, first, total), j) == Budget(r, j)
  {
    PlaceRangeEffect(r, first, total, 0, |r.slots|);
  }

  /** The slots after `_slotNodes.splice(0, k)` then `push(...moved)`. */
  function RotateLeft(s: seq<Slot>, k: nat): (t: seq<Slot>)
    requires k <= |s|
    ensures |t| == |s|
  {
    s[k..] + s[..k]
  }

  /** The slots after `_slotNodes.splice(length - k, k)` then `unshift(...moved)`. */
  function RotateRight(s: seq<Slot>, k: nat): (t: seq<Slot>)
    requires k <= |s|
    ensures |t| == |s|
  {
    s[|s| - k..] + s[..|s| - k]
  }

  /**
   * `_updateVisible` once the new first index is known: a full relayout when
   * forced or when the window jumps by at least the pool size, nothing when it
   * does not move, and otherwise a rotation by `|diff|` that rebinds only the
   * entering slots.
   */
  function Shift(r: Ring, first: int, newFirst: int, total: int, force: bool): (r': Ring)
    ensures |r'.slots| == |r.slots|
  {
    var n := |r.slots|;
    var diff := newFirst - first;
    if force then LayoutSlots(r, newFirst, total)
    else if diff == 0 then r
    else if AbsI(diff) >= n then LayoutSlots(r, newFirst, total)
    else if diff > 0 then PlaceRange(r.(slots := RotateLeft(r.slots, diff)), newFirst, total, n - diff, n)
    else PlaceRange(r.(slots := RotateRight(r.slots, -diff)), newFirst, total, 0, -diff)
  }

  /** Any window update leaves the pool satisfying the window invariant for the new first index. */
  lemma ShiftEstablishesWindow(r: Ring, first: int, newFirst: int, total: int, force: bool)
    requires WindowInvariant(r.slots, first, total)
    ensures WindowInvariant(Shift(r, first, newFirst, total, force).slots, newFirst, total)
  {
    var n := |r.slots|;
    var diff := newFirst - first;
    if force || AbsI(diff) >= n {
      LayoutSlotsEstablishesWindow(r, newFirst, total);
    } else if diff > 0 {
      ShiftLeftWindow(r, first, newFirst, total);
    } else if diff < 0 {
      ShiftRightWindow(r, first, newFirst, total);
    }
  }

  /** Moving the window forward: the kept slots already hold their new indices, the rotated tail is placed. */
  lemma ShiftLeftWindow(r: Ring, first: int, newFirst: int, total: int)
    requires WindowInvariant(r.slots, first, total)
    requires 0 < newFirst - first < |r.slots|
    ensures WindowInvariant(
      PlaceRange(r.(slots := RotateLeft(r.slots, newFirst - first)), newFirst, total,
                 |r.slots| - (newFirst - first), |r.slots|).slots, newFirst, total)
  {
    var n := |r.slots|;
    var diff := newFirst - first;
    var r1 := r.(slots := RotateLeft(r.slots, diff));
    PlaceRangeSlots(r1, newFirst, total, n - diff, n);
    forall s | 0 <= s < n - diff
      ensures r1.slots[s] == r.slots[s + diff]
    {
    }
  }

  /** Moving the window back: the kept slots already hold their new indices, the rotated head is placed. */
  lemma ShiftRightWindow(r: Ring, first: int, newFirst: int, total: int)
    requires WindowInvariant(r.slots, first, total)
    requires 0 < first - newFirst < |r.slots|
    ensures WindowInvariant(
      PlaceRange(r.(slots := RotateRight(r.slots, first - newFirst)), newFirst, total, 0, first - newFirst).slots,
      newFirst, total)
  {
    var n := |r.slots|;
    var k := first - newFirst;
    var r1 := r.(slots := RotateRight(r.slots, k));
    PlaceRangeSlots(r1, newFirst, total, 0, k);
    forall s | k <= s < n
      ensures r1.slots[s] == r.slots[s - k]
    {
    }
  }

  /** Rotating the slots only permutes their nodes. */
  lemma RotatePermutesNodes(s: seq<Slot>, k: nat)
    requires k <= |s|
    ensures multiset(NodesOf(s[k..] + s[..k])) == multiset(NodesOf(s))
  {
    var ns := NodesOf(s);
    assert NodesOf(s[k..] + s[..k]) == ns[k..] + ns[..k];
    assert ns == ns[..k] + ns[k..];
  }

  /** A window update only permutes the pool's nodes. */
  lemma ShiftPermutesNodes(r: Ring, first: int, newFirst: int, total: int, force: bool)
    ensures multiset(NodesOf(Shift(r, first, newFirst, total, force).slots)) == multiset(NodesOf(r.slots))
  {
    var n := |r.slots|;
    var diff := newFirst - first;
    if force || AbsI(diff) >= n {
      PlaceRangeSlots(r, newFirst, total, 0, n);
    } else if diff > 0 {
      var r1 := r.(slots := RotateLeft(r.slots, diff));
      PlaceRangeSlots(r1, newFirst, total, n - diff, n);
      RotatePermutesNodes(r.slots, diff);
      assert NodesOf(Shift(r, first, newFirst, total, force).slots) == NodesOf(r1.slots);
    } else if diff < 0 {
      var r1 := r.(slots := RotateRight(r.slots, -diff));
      PlaceRangeSlots(r1, newFirst, total, 0, -diff);
      RotatePermutesNodes(r.slots, n + diff);
      assert NodesOf(Shift(r, first, newFirst, total, force).slots) == NodesOf(r1.slots);
    }
  }

  /** A window update never changes any index's budget: the appear hook is only ever traded for a pending mark. */
  lemma ShiftConservesBudget(r: Ring, first: int, newFirst: int, total: int, force: bool)
    ensures forall j :: Budget(Shift(r, first, newFirst, total, force), j) == Budget(r, j)
  {
    var n := |r.slots|;
    var diff := newFirst - first;
    if force || AbsI(diff) >= n {
      LayoutSlotsEstablishesWindow(r, newFirst, total);
    } else if diff > 0 {
      PlaceRangeEffect(r.(slots := RotateLeft(r.slots, diff)), newFirst, total, n - diff, n);
    } else if diff < 0 {
      PlaceRangeEffect(r.(slots := RotateRight(r.slots, -diff)), newFirst, total, 0, -diff);
    }
  }

  /**
   * The three choices of a window update. With no move and no force nothing
   * changes. A forced update or a jump of at least the pool size relays out
   * every slot. A smaller move keeps the overlapping slots exactly as they
   * were, shifted by `diff`, binds only the `|diff|` entering indices, and
   * fires at most two hooks per entering slot, each for an entering index
   * that exists; no kept slot is rendered again.
   */
  lemma ShiftCases(r: Ring, first: int, newFirst: int, total: int, force: bool)
    ensures var n := |r.slots|;
      var diff := newFirst - first;
      var r' := Shift(r, first, newFirst, total, force);
      (!force && diff == 0 ==> r' == r) &&
      (force || AbsI(diff) >= n ==> r' == LayoutSlots(r, newFirst, total)) &&
      (!force && 0 < diff < n ==>
        (forall s :: 0 <= s < n - diff ==> r'.slots[s] == r.slots[s + diff]) &&
        r'.pending == r.pending - Entering(newFirst, total, n - diff, n) &&
        r.trace <= r'.trace && |r'.trace| <= |r.trace| + 2 * diff &&
        (forall k :: |r.trace| <= k < |r'.trace| ==> r'.trace[k].index in Entering(newFirst, total, n - diff, n))) &&
      (!force && -n < diff < 0 ==>
        (forall s :: -diff <= s < n ==> r'.slots[s] == r.slots[s + diff]) &&
        r'.pending == r.pending - Entering(newFirst, total, 0, -diff) &&
        r.trace <= r'.trace && |r'.trace| <= |r.trace| - 2 * diff &&
        (forall k :: |r.trace| <= k < |r'.trace| ==> r'.trace[k].index in Entering(newFirst, total, 0, -diff)))
  {
    var n := |r.slots|;
    var diff := newFirst - first;
    if !force && 0 < diff < n {
      var r1 := r.(slots := RotateLeft(r.slots, diff));
      PlaceRangeEffect(r1, newFirst, total, n - diff, n);
      PlaceRangeTrace(r1, newFirst, total, n - diff, n);
    } else if !force && -n < diff < 0 {
      var r1 := r.(slots := RotateRight(r.slots, -diff));
      PlaceRangeEffect(r1, newFirst, total, 0, -diff);
      PlaceRangeTrace(r1, newFirst, total, 0, -diff);
    }
  }

  /**
   * Under the window invariant the bound indices are exactly the window
   * `[first, first + slots)` cut at `total`, each bound to one slot only.
   */
  lemma WindowBindsExactlyItsIndices(slots: seq<Slot>, first: int, total: int)
    requires WindowInvariant(slots, first, total)
    ensures (set s | 0 <= s < |slots| && slots[s].active :: slots[s].dataIndex)
      == Entering(first, total, 0, |slots|)
    ensures forall s, t :: 0 <= s < t < |slots| && slots[s].active && slots[t].active ==>
      slots[s].dataIndex != slots[t].dataIndex
  {
    var bound := set s | 0 <= s < |slots| && slots[s].active :: slots[s].dataIndex;
    var window := Entering(first, total, 0, |slots|);
    forall i | i in window
      ensures i in bound
    {
      var s := i - first;
      assert slots[s].active && slots[s].dataIndex == i;
    }
  }

  /**
   * `setTotalCount` raising the count from `oldCount` to `newCount` marks
   * every appended index as pending an appear hook.
   */
  function MarkAppended(pending: set<int>, oldCount: int, newCount: int): (p: set<int>)
    ensures forall i :: i in p <==> i in pending || oldCount <= i < newCount
  {
    pending + Entering(0, newCount, oldCount, newCount)
  }

  /** `refreshIndex` as written: renders the slot at `index - first` for any index inside the window, bound or not. */
  function RefreshAsWritten(slots: seq<Slot>, first: int, index: int): seq<Hook>
  {
    if index < first || index > first + |slots| - 1 then []
    else [Render(slots[index - first].node, index)]
  }

  /**
   * A window of two slots over a one-item list: refreshing index 1, which is
   * inside the window but past the end of the list, renders the hidden slot
   * with an index the data does not have.
   */
  lemma RefreshAsWrittenRendersMissingItem()
    ensures var slots := [Slot(0, true, 0), Slot(1, false, -1)];
      WindowInvariant(slots, 0, 1) &&
      RefreshAsWritten(slots, 0, 1) == [Render(1, 1)] && !slots[1].active
  {
  }

  /** `refreshIndex`, with the render restricted to indices that exist: it renders only a bound slot. */
  function Refresh(slots: seq<Slot>, first: int, total: int, index: int): (t: seq<Hook>)
  {
    if index < first || index > first + |slots| - 1 || index >= total then []
    else [Render(slots[index - first].node, index)]
  }

  /**
   * Under the window invariant, refreshing renders exactly when the index is
   * bound, and then renders the one slot bound to it; it never relays out.
   */
  lemma RefreshRendersBoundSlotOnly(slots: seq<Slot>, first: int, total: int, index: int)
    requires WindowInvariant(slots, first, total)
    ensures |Refresh(slots, first, total, index)| <= 1
    ensures Refresh(slots, first, total, index) != [] <==>
      exists s :: 0 <= s < |slots| && slots[s].active && slots[s].dataIndex == index
    ensures forall h :: h in Refresh(slots, first, total, index) ==>
      exists s :: 0 <= s < |slots| && slots[s].node == h.node && slots[s].active && slots[s].dataIndex == h.index
  {
    if first <= index < first + |slots| && index < total {
      var s := index - first;
      assert slots[s].active && slots[s].dataIndex == index;
    }
  }
}
